=== FILE: README.md ===
# dizzy: the PIN-gated access layer, in Dafny

dizzy is a browser launcher that keeps app shortcuts and notes in local
storage. Some of them can be protected by a PIN group. A group stores only a
digest of its PIN. A protected item stores its link or note body encrypted
under the PIN, and a mapping records which group guards it. This project
models that layer:

- the cipher library, with both of its modes:
  - primary: Web Crypto, with SHA-256 digests, PBKDF2 keys and AES-GCM;
  - fallback: a 32-bit string hash and an XOR stream, for pages served
    without a secure context.
- the four stores, as pure functions over ordered lists:
  - apps;
  - notes;
  - PIN groups;
  - item-to-group mappings.
- the four forms that feed them: the app sheet, the note sheet, the group
  sheet and the PIN prompt.
- the dashboard handlers, as state transitions over the stores plus the
  pieces of UI state they read: the item being edited, which sheets are
  open, and the PIN dialog with its target.
- the export sheet: group selection, PIN validation, the export gate, and
  which items leave decrypted.

Modules follow the source files:

| module | file | what it models |
|---|---|---|
| `Wrappers` | `wrappers.dfy` | `Option` |
| `JsStrings` | `js_strings.dfy` | strings as UTF-16 code units, with ECMAScript `trim` |
| `Lists` | `lists.dfy` | `filter`, `map`, `find` and the push loop, with their laws |
| `FallbackHash` | `fallback_hash.dfy` | the fallback PIN digest, down to 32-bit wrap-around |
| `Encryption` | `encryption.dfy` | digests, key derivation, blob layout, `encrypt`/`decrypt` |
| `PinManager` | `pin_manager.dfy` | the mapping store |
| `SavedPins` | `saved_pins.dfy` | the PIN group store |
| `Apps` | `apps.dfy` | the app store |
| `Notes` | `notes.dfy` | the note store |
| `AppForm`, `NoteForm`, `GroupForm`, `PinDialog` | one file each | the four forms |
| `Dashboard` | `dashboard.dfy` | the dashboard handlers |
| `Export` | `export.dfy` | the export sheet |

How the platform is represented:

- The platform primitives are a record of functions (`Encryption.Primitives`).
  SHA-256, PBKDF2, AES-GCM, UTF-8 and base64 are not defined here.
- The laws the model relies on are the predicate `Encryption.Lawful`.
  Lemmas that need it name it in their `requires`:
  - SHA-256 digests are 32 bytes (FIPS 180-4).
  - PBKDF2 yields a 32-byte key (section 5.2 of RFC 8018).
  - AES-GCM opens what it sealed (NIST SP 800-38D).
  - Decoding with a default `TextDecoder` inverts UTF-8 encoding on
    well-formed strings, except that one leading byte order mark (U+FEFF)
    is dropped (the WHATWG Encoding Standard's decode with BOM sniffing).
  - base64 decoding inverts encoding (section 4 of RFC 4648).
- Whether `crypto.subtle` exists is the `Mode`. Fallback mode still needs
  `crypto.getRandomValues` for its salt; see `Encryption.Encrypt` under
  "## Left out".
- Everything random or clock-dependent is a parameter:
  - the random salt and iv;
  - the UUID an item or group gets;
  - `Date.now()`.
- The dashboard handlers take encryption as a `Cipher`, a seal/unseal pair.
  `Encryption.LibraryCipher` is the library's own pair for one draw of salt
  and iv.

## Model

| member | source | states |
|---|---|---|
| FallbackHash.ToInt32 | lib/encryption.ts:22-23 | the `hash & hash` truncation yields a signed 32-bit value congruent to its input modulo 2^32 and leaves 32-bit values alone |
| FallbackHash.RunningHashIsPolyHash | lib/encryption.ts:18-24 | the loop's running value is the 32-bit wrap-around of the polynomial hash `31·h + c` over the code units, at every length |
| FallbackHash.ToHex | lib/encryption.ts:25 | `toString(16)` gives lower-case digits, no leading zero, that denote the number, and no more digits than it needs |
| FallbackHash.HexWidthAtMost8 | lib/encryption.ts:25 | every absolute 32-bit hash, at most 2^31, prints in at most eight digits, so `padStart(8, '0')` never truncates |
| FallbackHash.HashPinFallback | lib/encryption.ts:18-26 | the fallback digest is always eight lower-case hex digits and denotes the absolute value of the 32-bit hash |
| FallbackHash.EmptyPinDigest | lib/encryption.ts:18-26 | the empty PIN digests to "00000000" |
| FallbackHash.FourCharacterCollision | lib/encryption.ts:18-26 | the distinct four-character PINs "AaAa" and "BBBB" have the same fallback digest |
| Encryption.HashPin | lib/encryption.ts:28-33 | in fallback mode the stored digest is eight lower-case hex digits |
| Encryption.VerifyPin | lib/encryption.ts:35-38 | a PIN verifies exactly when its digest equals the stored one; in fallback mode only eight-digit hex strings can match |
| Encryption.FallbackAcceptsWrongPin | lib/encryption.ts:35-38 | in fallback mode the wrong PIN "AaAa" verifies against the digest of "BBBB" |
| Encryption.DeriveKeyFallback | lib/encryption.ts:66-78 | the fallback key has 32 bytes; byte i is byte i mod n of the n bytes of PIN ∥ salt masked with i, so with at least 32 bytes it is byte i itself; with none it is 0..31 |
| Encryption.XorStream | lib/encryption.ts:80-97 | the stream keeps the length, and each output byte differs from its input byte by the key byte repeated cyclically |
| Encryption.XorStreamInvolution | lib/encryption.ts:80-97 | masking twice with the same key gives the data back, whatever the key, the empty one included |
| Encryption.XorRoundTrip | lib/encryption.ts:80-97 | `xorDecrypt` inverts `xorEncrypt` under the same key for every well-formed text, except that its `TextDecoder` drops a leading U+FEFF |
| Encryption.Split | lib/encryption.ts:138-156 | the fixed-offset slicing loses and invents no byte, and a long enough blob yields a full salt and iv for its mode |
| Encryption.SplitAssemble | lib/encryption.ts:118-156 | slicing a blob assembled as salt ∥ iv ∥ body at the mode's offsets returns the same salt, iv and body |
| Encryption.Seal | lib/encryption.ts:99-134 | the encrypted bytes start with the salt, then the iv; in fallback mode they are exactly 32 bytes longer than the UTF-8 text |
| Encryption.Unseal | lib/encryption.ts:136-163 | only AES-GCM rejection makes decryption fail; the fallback path always yields a string |
| Encryption.Decrypt | lib/encryption.ts:136-163 | `decrypt` returns null exactly when base64 decoding fails or, in primary mode, AES-GCM rejects the blob |
| Encryption.RoundTrip | lib/encryption.ts:99-163 | decrypting with the PIN used to encrypt returns the text, in both modes, for every well-formed text, less one leading U+FEFF that the decoder drops |
| Encryption.BomLedTextLosesBom | lib/encryption.ts:89-163 | "\uFEFFx" encrypted and decrypted with the same PIN comes back as "x", in both modes |
| Encryption.FallbackNeverRejects | lib/encryption.ts:155-159 | in fallback mode any PIN decrypts a well-encoded blob to some text instead of failing |
| Encryption.LibraryCipher | lib/encryption.ts:99-163 | with lawful primitives, unsealing what the library's `encrypt` sealed under a PIN gives the text back through `decrypt` with the same PIN, for every well-formed text, less a leading U+FEFF |
| PinManager.SetPinForItem | hooks/use-pin-manager.ts:36-52 | an existing key is updated in place with everything else untouched; a new key is appended once at the end; the group is stored as given even when the flag is false |
| PinManager.HasPin | hooks/use-pin-manager.ts:54-57 | true only when some mapping for the key carries the flag |
| PinManager.GetPinId | hooks/use-pin-manager.ts:67-70 | a returned group is the group of some mapping for the key |
| PinManager.QueryFirstMatch | hooks/use-pin-manager.ts:54-70 | `hasPin` and `getPinId` answer the flag and group of the first mapping for the key, and false and none when no mapping has it |
| PinManager.QueryExact | hooks/use-pin-manager.ts:54-70 | with one mapping per key, `hasPin` and `getPinId` answer exactly that mapping's flag and group |
| PinManager.RemoveMapping | hooks/use-pin-manager.ts:59-65 | every mapping for the key goes and every other mapping stays |
| PinManager.SetThenQuery | hooks/use-pin-manager.ts:36-70 | after setting a key, `hasPin` and `getPinId` answer exactly what was set |
| PinManager.SetLeavesOtherKeys | hooks/use-pin-manager.ts:36-70 | setting one key changes nothing `hasPin` or `getPinId` answer for any other key |
| PinManager.SetKeepsUnique | hooks/use-pin-manager.ts:36-52 | setting a key keeps at most one mapping per key |
| PinManager.RemoveClears | hooks/use-pin-manager.ts:59-70 | after removal the item reads as unprotected with no group, and removing again changes nothing |
| PinManager.RemoveLeavesOtherKeys | hooks/use-pin-manager.ts:59-70 | removing one key changes nothing the queries answer for any other key |
| PinManager.UnprotectedMayKeepGroup | hooks/use-pin-manager.ts:36-46 | marking an item unprotected with a group keeps that group visible to `getPinId` |
| SavedPins.AddPin | hooks/use-saved-pins.ts:53-64 | one group is appended with the name, hint, time and id it returns, and its digest accepts the PIN |
| SavedPins.AddPinKeepsOnlyDigest | hooks/use-saved-pins.ts:53-64 | two PINs with the same digest leave identical stores behind: the PIN itself is never kept |
| SavedPins.DeletePin | hooks/use-saved-pins.ts:66-72 | no group with the id survives, every other group does |
| SavedPins.DeleteOrderAndIdempotence | hooks/use-saved-pins.ts:66-72 | deletion keeps the surviving groups' order and deleting twice is deleting once |
| SavedPins.GetPinById | hooks/use-saved-pins.ts:74-76 | the first group with the id, and nothing exactly when no group has it |
| SavedPins.VerifyPin | hooks/use-saved-pins.ts:78-83 | an unknown group rejects every PIN; a known one accepts exactly the PINs whose digest matches its own |
| SavedPins.AddThenVerify | hooks/use-saved-pins.ts:53-83 | a group created under a fresh id accepts its PIN |
| SavedPins.DeleteThenVerify | hooks/use-saved-pins.ts:66-83 | after deletion no PIN verifies for that id |
| Apps.AddApp | hooks/use-apps.ts:38-45 | exactly one app is appended, kept as given when it has an id and given the generated one otherwise |
| Apps.UpdateApp | hooks/use-apps.ts:47-53 | length, order and ids are kept; apps with the id take the new fields, the others stay |
| Apps.UpdateAbsent | hooks/use-apps.ts:47-53 | updating an id no app has changes nothing |
| Apps.UpdateIdempotent | hooks/use-apps.ts:47-53 | updating twice with the same fields is updating once |
| Apps.DeleteApp | hooks/use-apps.ts:55-61 | no app with the id survives, every other app does |
| Apps.DeleteOrderAndIdempotence | hooks/use-apps.ts:55-61 | deletion keeps the survivors' order and deleting twice is deleting once |
| Apps.AddThenDelete | hooks/use-apps.ts:38-61 | deleting an app just added under a fresh id restores the list |
| Notes.OrNow | hooks/use-notes.ts:43 | a missing or zero timestamp becomes the current time, any other is kept |
| Notes.AddNote | hooks/use-notes.ts:39-49 | exactly one note is appended; a note with an id keeps it and its truthy timestamps, one without gets the generated id and the current time twice |
| Notes.UpdateNote | hooks/use-notes.ts:51-59 | length, order, ids and creation times are kept; matching notes take the given fields and the current time |
| Notes.UpdateIdempotent | hooks/use-notes.ts:51-59 | updating twice with the same fields at the same time is updating once |
| Notes.DeleteNote | hooks/use-notes.ts:61-67 | no note with the id survives, every other note does |
| Notes.DeleteOrderAndIdempotence | hooks/use-notes.ts:61-67 | deletion keeps the survivors' order and deleting twice is deleting once |
| Notes.AddThenDelete | hooks/use-notes.ts:39-67 | deleting a note just added under a fresh id restores the list |
| JsStrings.Trim | components/app-form-sheet.tsx:41-46 | `trim` never lengthens, leaves no whitespace at either end, and is empty exactly for blank strings |
| JsStrings.TrimIsInfix | components/app-form-sheet.tsx:41-46 | `trim` returns a contiguous part of the string, and everything it cuts off at either end is whitespace |
| JsStrings.TrimmedKeepsThroughStripBom | components/app-form-sheet.tsx:41-46 | a trimmed string never starts with U+FEFF, so what the sheets submit loses nothing to the decoder |
| JsStrings.TrimIdempotent | components/app-form-sheet.tsx:41-46 | trimming a trimmed string changes nothing |
| AppForm.Open | components/app-form-sheet.tsx:27-37 | the sheet shows the edited app's fields, requires a PIN exactly when the app has a group, and starts with an empty PIN |
| AppForm.SetRequirePin | components/app-form-sheet.tsx:118-124 | unticking clears the group and the PIN; nothing else changes |
| AppForm.SelectGroup | components/app-form-sheet.tsx:135-138 | choosing a group clears the PIN typed so far and leaves the name, link, icon and checkbox as they were |
| AppForm.Submit | components/app-form-sheet.tsx:39-52 | the sheet submits and closes exactly when name and link are not blank and a required PIN has a group and four characters; it hands over trimmed fields, with the group and PIN exactly when one is required |
| AppForm.SubmissionsWellFormed | components/app-form-sheet.tsx:39-52 | everything the sheet submits is trimmed and non-blank, and carries a group and a PIN of at least four characters when protected |
| NoteForm.Open | components/note-form-sheet.tsx:26-34 | the sheet shows the note's title, the decrypted content and its group, with an empty PIN |
| NoteForm.SelectGroup | components/note-form-sheet.tsx:92-95 | choosing a group clears the PIN |
| NoteForm.Submit | components/note-form-sheet.tsx:36-41 | the sheet submits and closes exactly when the title is not blank, a group is chosen and the PIN has four characters |
| NoteForm.SubmissionsWellFormed | components/note-form-sheet.tsx:36-41 | every submitted note has a trimmed non-blank title, a group and a PIN of at least four characters |
| GroupForm.Open | components/group-form-sheet.tsx:19-26 | opening empties name, PIN and hint |
| GroupForm.Submit | components/group-form-sheet.tsx:28-33 | the sheet refuses exactly when the name or PIN is blank, and otherwise submits all three trimmed |
| GroupForm.DisabledIffRefused | components/group-form-sheet.tsx:28-33 | the disabled state of the Create button and the handler's refusal agree |
| GroupForm.ShortPinAccepted | components/group-form-sheet.tsx:28-33 | the handler accepts a one-character PIN: it checks no minimum length |
| PinDialog.Open | components/pin-dialog.tsx:21-27 | opening clears the PIN and the error |
| PinDialog.Edit | components/pin-dialog.tsx:79-82 | typing takes the new text and clears the error |
| PinDialog.Submit | components/pin-dialog.tsx:29-36 | a PIN under four characters sets the error and goes nowhere; a longer one is passed on exactly as typed |
| PinDialog.RetryAfterError | components/pin-dialog.tsx:29-36 | after a refused short PIN, a long enough retry clears the error and is passed on |
| Dashboard.AppRecord | components/dizzy-dashboard.tsx:94-108 | the stored app carries the submitted name and icon, the final link and the id |
| Dashboard.SubmitApp | components/dizzy-dashboard.tsx:79-110 | saving an app never touches groups or notes; it alerts "Incorrect PIN", changing nothing, exactly when protection is asked for with a PIN that does not verify |
| Dashboard.WrongPinEditChangesNothing | components/dizzy-dashboard.tsx:82-90 | a protected save with a wrong PIN leaves the state as it was and alerts |
| Dashboard.ProtectOnEdit | components/dizzy-dashboard.tsx:80-94 | a verified protected edit stores the encrypted link in the edited app and maps it to the group as protected |
| Dashboard.ProtectOnAdd | components/dizzy-dashboard.tsx:95-109 | a verified protected add appends the app under the new id with the encrypted link and maps it to the group as protected |
| Dashboard.UnprotectOnEdit | components/dizzy-dashboard.tsx:91-94 | unticking "require PIN" removes the app's mapping outright and stores the link as submitted |
| Dashboard.AddWithoutPin | components/dizzy-dashboard.tsx:95-109 | an unprotected add appends the app with the link as submitted and creates no mapping |
| Dashboard.SheetSubmissionsAreDecided | components/dizzy-dashboard.tsx:82-93 | every submission from the app sheet that requires a PIN carries a group and a PIN, so the branch that keeps an old mapping is never reached from the sheet |
| Dashboard.ResubmitEncryptsStoredBlob | components/dizzy-dashboard.tsx:74-94 | re-saving a protected app with its PIN encrypts the stored blob a second time |
| Dashboard.UnprotectViaSheetKeepsBlob | components/dizzy-dashboard.tsx:74-125 | unprotecting an encrypted app through the sheet stores its blob as the plain link, and a click then opens the blob |
| Dashboard.DeleteApp | components/dizzy-dashboard.tsx:112-115 | deleting an app removes it and leaves it with no mapping |
| Dashboard.ClickApp | components/dizzy-dashboard.tsx:117-125 | an unprotected app opens its stored link at once; a protected one opens the PIN dialog with its group and changes nothing else |
| Dashboard.StartAppSheet | components/dizzy-dashboard.tsx:69-77 | the sheet opens on the chosen app, or on none when adding, with no store or mapping touched |
| Dashboard.SaveAppSheet | components/app-form-sheet.tsx:39-52 | saving from the app sheet closes it whatever the handler decides; it alerts exactly when a PIN is required and does not verify, and then changes nothing but closing the sheet; a blocked sheet stays open and nothing happens |
| Dashboard.WrongPinAppSaveClosesSheet | components/app-form-sheet.tsx:39-52 | a protected app saved with a wrong PIN raises "Incorrect PIN", changes no store, and still closes the sheet |
| Dashboard.StartNoteSheet | components/dizzy-dashboard.tsx:128-132 | adding a note opens an empty sheet with no note being edited; stores, mappings, the dialog and the app sheet stay as they were |
| Dashboard.ClickNote | components/dizzy-dashboard.tsx:134-137 | every note goes through the PIN dialog with the group of its mapping |
| Dashboard.SubmitNote | components/dizzy-dashboard.tsx:139-158 | saving a note never touches apps or groups; without a PIN it does nothing; an alert changes nothing |
| Dashboard.SavedNoteIsProtected | components/dizzy-dashboard.tsx:148-157 | a verified note save stores the encrypted content, maps the note to the group as protected and closes the sheet |
| Dashboard.WrongPinNoteChangesNothing | components/dizzy-dashboard.tsx:142-146 | the handler alone, given a wrong PIN, leaves the state as it was and alerts; the sheet's own close comes from `SaveNoteSheet` |
| Dashboard.NoteSheetSubmissionsReachVerification | components/dizzy-dashboard.tsx:139-146 | a note from the sheet is saved exactly when its PIN verifies and raises an alert otherwise |
| Dashboard.SaveNoteSheet | components/note-form-sheet.tsx:36-41 | saving from the note sheet closes it whatever the handler decides; it alerts exactly when the PIN does not verify, and then changes nothing but closing the sheet; a blocked sheet stays open and nothing happens |
| Dashboard.WrongPinNoteSaveClosesSheet | components/note-form-sheet.tsx:36-41 | a note saved with a wrong PIN raises "Incorrect PIN", changes no store, and still closes the sheet, discarding what was typed |
| Dashboard.VerifiedNoteSaveIsHandlerStep | components/dizzy-dashboard.tsx:139-158 | with a verified PIN the sheet's close adds nothing to the handler's step, which already closed the sheet |
| Dashboard.SaveThenOpenNote | components/dizzy-dashboard.tsx:139-208 | saving a new note under a verified group, clicking it and entering the same PIN opens the sheet on that note with its original content, less a leading U+FEFF, for content that is not empty once that is dropped (from the sheet: content that is not blank) |
| Dashboard.BlankNoteNeverOpens | components/dizzy-dashboard.tsx:139-208 | a new note saved with empty content under a verified group, clicked and given the right PIN, raises "Failed to decrypt" and changes nothing: it can never be opened again |
| Dashboard.BlankSheetNoteNeverOpens | components/note-form-sheet.tsx:36-41 | the sheet lets a blank body through, so a note saved from it with blank content under a verified PIN can never be reopened |
| Dashboard.DeleteNote | components/dizzy-dashboard.tsx:160-163 | deleting a note removes it and leaves it with no mapping |
| Dashboard.CreateGroup | components/dizzy-dashboard.tsx:174-176 | a group created under a fresh id accepts its PIN; apps, notes and mappings stay |
| Dashboard.DeleteGroup | components/dizzy-dashboard.tsx:170-172 | deleting a group leaves the mappings that name it in place; no group with the id remains, so no PIN verifies for it any more |
| Dashboard.PinSubmit | components/dizzy-dashboard.tsx:179-208 | entering a PIN never changes a store; an alert leaves the state as it was; opening a link closes the dialog |
| Dashboard.PinSubmitRefusals | components/dizzy-dashboard.tsx:181-206 | no group: nothing happens; wrong PIN: "Incorrect PIN"; a failed or empty decryption: "Failed to decrypt" with the dialog still open |
| Dashboard.ProtectThenOpen | components/dizzy-dashboard.tsx:95-192 | creating a group, adding an app protected by it, clicking it and entering the PIN opens the original link, less a leading U+FEFF; a PIN with another digest is refused with nothing changed |
| Dashboard.AppRecordAsWritten | components/dizzy-dashboard.tsx:94-108 | the record the source stores carries the raw PIN whenever a PIN was required |
| Dashboard.AsWrittenStoresRawPin | components/dizzy-dashboard.tsx:94-108 | two saves that differ only in the PIN store different records, one holding "4242" in the clear |
| Dashboard.AppRecordIsAsWrittenLessSubmissionFields | components/dizzy-dashboard.tsx:94-108 | the corrected record is the as-written one with `requirePin`, `pinId` and `pin` left out, and nothing else changed |
| Dashboard.AppRecordIgnoresPin | components/dizzy-dashboard.tsx:94-108 | the stored record does not depend on the PIN typed |
| Export.Reset | components/export-sheet.tsx:56-60 | opening a format starts with no group selected |
| Export.GroupToggle | components/export-sheet.tsx:62-72 | ticking adds the group with an empty, unvalidated PIN; unticking removes it; no other group changes |
| Export.ToggleOnOff | components/export-sheet.tsx:62-72 | ticking then unticking a group leaves the rest of the selection as it was |
| Export.PinChange | components/export-sheet.tsx:74-83 | typing a PIN for a selected group replaces it and resets validation; other groups and unselected ids are untouched |
| Export.SetValid | components/export-sheet.tsx:90-109 | a validation result lands on a selected group only, leaving the others |
| Export.ValidatePin | components/export-sheet.tsx:85-112 | a PIN under four characters is ignored; otherwise the group is marked valid exactly when the PIN verifies for it, an unknown group as invalid |
| Export.EditInvalidates | components/export-sheet.tsx:74-112 | editing the PIN after validation always returns the group to "not validated" |
| Export.ExportDisabled | components/export-sheet.tsx:290-295 | export is disabled exactly while exporting or when some selected group is not validated as correct; with nothing selected it is enabled |
| Export.ExportGate | components/export-sheet.tsx:62-112 | a freshly ticked group blocks export; after its PIN is typed and validated, export is enabled exactly when the PIN verifies |
| Export.Unlocking | components/export-sheet.tsx:122-124 | a group unlocks items exactly when it is selected, validated as correct and has a non-empty PIN |
| Export.ExportApp | components/export-sheet.tsx:118-131 | an app without a group is exported as it is; a guarded one is exported exactly when its group unlocks and decryption yields a non-empty link, which replaces the stored one |
| Export.ExportNote | components/export-sheet.tsx:133-146 | the same for notes, on the encrypted content |
| Export.DecryptedData | components/export-sheet.tsx:114-149 | the export never has more items than the stores, and every exported item has the id of a stored one |
| Export.DecryptedDataAppend | components/export-sheet.tsx:114-149 | the export keeps store order: exporting two runs of items gives the two exports one after the other |
| Export.ExportedAppIncluded | components/export-sheet.tsx:114-131 | every app the loop decides to export is in the exported list, in its exported form |
| Export.ExportedNoteIncluded | components/export-sheet.tsx:133-149 | every note the loop decides to export is in the exported list, in its exported form |
| Export.NothingSelectedExportsOpenItems | components/export-sheet.tsx:114-149 | with no group selected the export is exactly the items without a group, in store order |
| Export.ProtectedAppExportsPlainLink | components/export-sheet.tsx:118-131 | an app encrypted under a PIN whose group is unlocked with that PIN is exported with its original link, less a leading U+FEFF |

## Left out

- Persistence is not modelled. `localStorage` reads, writes and JSON
  parsing are left out, including the reset to an empty list when stored
  data does not parse. Each store is the list the hook holds in memory.
- React scheduling is not modelled. Each handler, including the awaited
  hashing and encryption inside it, runs as one atomic step. Updater queues,
  stale closures and interleaved handlers are out of scope.
- `crypto.randomUUID`, `generateUUID`, `crypto.getRandomValues` and
  `Date.now` are parameters. `generateUUID`'s `Math.random` fallback format
  is not modelled.
- The bodies of SHA-256, PBKDF2, AES-GCM, `TextEncoder`/`TextDecoder` and
  `btoa`/`atob` are not modelled. Only the laws in `Encryption.Lawful` are
  used. The lossy replacement `TextDecoder` performs on malformed UTF-8, and
  strings holding lone surrogates, are outside the round-trip lemmas.
- The model does not prove that AES-GCM rejects a wrong PIN or a tampered
  blob. That is a cryptographic assumption, not a property of this code.
- `window.open` and `alert` are the `Effect` a handler returns.
- The export file itself is not modelled: `handleExport`, the JSON and PDF
  layout, the result banner and the download. Only the selection, the gate
  and `getDecryptedData` are.
- Closing the PIN dialog without submitting, the hint shown in it, and view
  switching and drawers are plain UI state and are not modelled.
- Tiles, logo, IP display, auth guard, layout and page are not part of this
  model.
- `Encryption.HashPin`: the primary-mode digest is stated only through
  `sha256` and `base64Encode`. Its 44-character shape is not stated, because
  base64 is abstract here.
- `GroupForm.Submit`: the browser's own constraint validation is not
  modelled, so only the handler's checks are. That validation covers
  `required`, `minLength={4}`, `pattern="[0-9]*"` and `type="url"`. The same
  holds for the other forms' `Submit`. In particular a browser may refuse an
  encrypted blob in the app sheet's URL field before the handler runs, which
  `Dashboard.ResubmitEncryptsStoredBlob` and
  `Dashboard.UnprotectViaSheetKeepsBlob` do not take into account.
- `Dashboard.SubmitApp`: it stores the corrected four-field record
  (`Dashboard.AppRecord`), not the record the source stores. The source
  also copies `requirePin`, `pinId` and the raw `pin` into the saved app,
  when adding and when editing; that record is `Dashboard.AppRecordAsWritten`,
  and the discrepancy is the one under "Findings". So the model does not
  state what the source leaves in the app store for those three fields.
- `Encryption.Encrypt`: it is total here, but the source's `encrypt` can
  throw in two ways the model does not represent:
  - `btoa(String.fromCharCode(...combined))` (lib/encryption.ts:123 and
    :133) passes every byte as its own argument. Engines cap the argument
    count, so a long enough text makes it throw a `RangeError`.
    `handleSubmitNote` and `handleSubmitApp` then reject, and nothing is
    saved, after the sheet has already closed.
    `Dashboard.SavedNoteIsProtected`, `Dashboard.SaveNoteSheet`,
    `Dashboard.SaveAppSheet` and the app handler lemmas assume the text is
    short enough.
  - In fallback mode with no `crypto` object at all, `crypto.getRandomValues`
    (lib/encryption.ts:101-106) throws a `ReferenceError`. The model takes
    the salt and iv as already drawn.
- `Export.ValidatePin`: it runs to completion in one step. An entry whose
  PIN was edited while verification was pending would, in the source,
  receive the stale result. That case is not modelled.

The code differs from its design notes in a few places. The model follows
the code in each of them; its one departure from the code is the stored app
record under "Findings":

- Unprotecting an app removes its mapping outright (`removeMapping`). It
  does not record it as unprotected.
- `setPinForItem` stores the group it is given even when the flag is false,
  so "unprotected ⇒ no group" is not an invariant of the store
  (`PinManager.UnprotectedMayKeepGroup`).
- A wrong PIN and a failed decryption raise different messages: "Incorrect
  PIN" and "Failed to decrypt".
- In fallback mode a wrong PIN is not detected by decryption
  (`Encryption.FallbackNeverRejects`). It is not even always detected by
  verification (`Encryption.FallbackAcceptsWrongPin`).
- Encrypting and then decrypting drops one leading U+FEFF, because
  `TextDecoder` reads it as a byte order mark
  (`Encryption.BomLedTextLosesBom`). Everything the sheets submit is
  trimmed, so it never starts with one
  (`JsStrings.TrimmedKeepsThroughStripBom`).
- Empty content does not survive in practice, although it round-trips
  through the cipher. The note sheet accepts a blank body, which is saved
  encrypted as "". Every later open with the right PIN then alerts "Failed
  to decrypt", because `""` is falsy (`Dashboard.BlankNoteNeverOpens`,
  `Dashboard.BlankSheetNoteNeverOpens`). Such a note can only be deleted,
  and the export leaves it out (`Export.ExportNote`).
- The group sheet's handler checks no minimum PIN length
  (`GroupForm.ShortPinAccepted`).

## Findings

| source | as written | input that shows it | evidently intended | confidence | as-written member | corrected member |
|---|---|---|---|---|---|---|
| components/dizzy-dashboard.tsx:94-108 | `handleSubmitApp` stores `{ ...data, link: finalLink, id }`. The whole form submission is spread into the saved app, so its `requirePin`, `pinId` and raw `pin` fields are saved too. | Protect an app with group "g" and PIN "4242": the record written to the app store holds `pin: "4242"` next to the encrypted link. | The stored app holds only id, name, link and icon. The PIN never reaches storage; only its digest does. | high (not executed) | Dashboard.AppRecordAsWritten, Dashboard.AsWrittenStoresRawPin | Dashboard.AppRecord, Dashboard.AppRecordIgnoresPin |

=== FILE: app_form.dfy ===
/** The add/edit app sheet (`AppFormSheet`): its fields, how they reset, and
    the guard in front of `onSubmit`. */
module AppForm {
  import opened Wrappers
  import opened JsStrings
  import opened PinRules
  import Apps

  datatype Fields = Fields(name: JsString, link: JsString, imageUrl: JsString, requirePin: bool,
                           selectedPinId: JsString, pin: JsString)

  /** The `data` handed to `onSubmit`; `pinId` and `pin` are `undefined`
      (`None`) when no PIN is required. */
  datatype Submission = Submission(name: JsString, link: JsString, imageUrl: JsString, requirePin: bool,
                                   pinId: Option<JsString>, pin: Option<JsString>)

  /** The outcome of pressing submit: what was handed to `onSubmit`, and
      whether `onClose` ran. */
  datatype Outcome = Outcome(submitted: Option<Submission>, closed: bool)

  /** The effect that runs when the sheet opens: fields come from the item
      being edited (empty for a new one); a PIN is required exactly when the
      item has a group; the PIN field is always cleared. */
  function Open(initialData: Option<Apps.AppItem>, initialPinId: Option<JsString>): (f: Fields)
    ensures f.requirePin <==> Truthy(initialPinId)
    ensures f.pin == Empty
    ensures f.selectedPinId == initialPinId.GetOr(Empty)
    ensures initialData.Some? ==>
      f.name == initialData.value.name && f.link == initialData.value.link && f.imageUrl == initialData.value.imageUrl
    ensures initialData.None? ==> f.name == Empty && f.link == Empty && f.imageUrl == Empty
  {
    match initialData
    case Some(app) => Fields(app.name, app.link, app.imageUrl, Truthy(initialPinId), initialPinId.GetOr(Empty), Empty)
    case None => Fields(Empty, Empty, Empty, Truthy(initialPinId), initialPinId.GetOr(Empty), Empty)
  }

  /** The "require PIN" checkbox: unchecking also clears the group and the
      PIN; nothing else changes. */
  function SetRequirePin(f: Fields, checked: bool): (r: Fields)
    ensures r.requirePin == checked
    ensures !checked ==> r.selectedPinId == Empty && r.pin == Empty
    ensures checked ==> r.selectedPinId == f.selectedPinId && r.pin == f.pin
    ensures r.name == f.name && r.link == f.link && r.imageUrl == f.imageUrl
  {
    if checked then f.(requirePin := true)
    else f.(requirePin := false, selectedPinId := Empty, pin := Empty)
  }

  /** Choosing a group clears the PIN typed for the previous one. */
  function SelectGroup(f: Fields, pinId: JsString): (r: Fields)
    ensures r.selectedPinId == pinId && r.pin == Empty
    ensures r.name == f.name && r.link == f.link && r.imageUrl == f.imageUrl && r.requirePin == f.requirePin
  {
    f.(selectedPinId := pinId, pin := Empty)
  }

  /** Why submit can refuse: a blank name or link, or a required PIN with no
      group or fewer than four characters. */
  predicate Blocked(f: Fields) {
    || Trim(f.name) == Empty
    || Trim(f.link) == Empty
    || (f.requirePin && (f.selectedPinId == Empty || |f.pin| < MinPinLength))
  }

  /** `handleSubmit`: when not blocked, hands over trimmed name, link and icon
      and, only when a PIN is required, the group and the untrimmed PIN, then
      closes; when blocked, does neither. */
  function Submit(f: Fields): (o: Outcome)
    ensures o.closed <==> o.submitted.Some?
    ensures o.submitted.None? <==> Blocked(f)
    ensures o.submitted.Some? ==> var d := o.submitted.value;
      && d.name == Trim(f.name) && d.link == Trim(f.link) && d.imageUrl == Trim(f.imageUrl)
      && d.requirePin == f.requirePin
      && (d.pinId.None? <==> !f.requirePin) && (d.pin.None? <==> !f.requirePin)
      && (f.requirePin ==> d.pinId == Some(f.selectedPinId) && d.pin == Some(f.pin))
  {
    if Trim(f.name) == Empty || Trim(f.link) == Empty then Outcome(None, false)
    else if f.requirePin && (f.selectedPinId == Empty || |f.pin| < MinPinLength) then Outcome(None, false)
    else
      var d := Submission(Trim(f.name), Trim(f.link), Trim(f.imageUrl), f.requirePin,
                          if f.requirePin then Some(f.selectedPinId) else None,
                          if f.requirePin then Some(f.pin) else None);
      Outcome(Some(d), true)
  }

  /** What every submission the sheet lets through satisfies. */
  predicate WellFormedSubmission(d: Submission) {
    && Trim(d.name) == d.name && d.name != Empty
    && Trim(d.link) == d.link && d.link != Empty
    && (d.requirePin ==> Truthy(d.pinId) && d.pin.Some? && |d.pin.value| >= MinPinLength)
    && (!d.requirePin ==> d.pinId.None? && d.pin.None?)
  }

  /** Submissions leave the sheet trimmed, non-blank and, when protected, with
      a group and a PIN of at least four characters. */
  lemma SubmissionsWellFormed(f: Fields)
    requires Submit(f).submitted.Some?
    ensures WellFormedSubmission(Submit(f).submitted.value)
  {
    TrimIdempotent(f.name);
    TrimIdempotent(f.link);
  }
}

=== FILE: apps.dfy ===
/** The app store (`useApps`): shortcuts with a name, a link (plain or an
    encrypted blob) and an icon URL. */
module Apps {
  import opened JsStrings
  import opened Lists

  datatype AppItem = AppItem(id: JsString, name: JsString, link: JsString, imageUrl: JsString)

  /** `Omit<AppItem, "id">`. */
  datatype AppFields = AppFields(name: JsString, link: JsString, imageUrl: JsString)

  /** What `addApp` receives: an item that already has an id, or one without. */
  datatype NewApp = WithId(item: AppItem) | WithoutId(fields: AppFields)

  function WithFields(a: AppItem, data: AppFields): AppItem {
    a.(name := data.name, link := data.link, imageUrl := data.imageUrl)
  }

  /** `addApp`, with the UUID it would generate passed in: the list grows by
      exactly one item at the end; an item with an id is stored unchanged. */
  function AddApp(apps: seq<AppItem>, app: NewApp, uuid: JsString): (r: seq<AppItem>)
    ensures |r| == |apps| + 1 && r[..|apps|] == apps
    ensures app.WithId? ==> r[|apps|] == app.item
    ensures app.WithoutId? ==> r[|apps|] == WithFields(AppItem(uuid, [], [], []), app.fields)
  {
    var item := match app
      case WithId(a) => a
      case WithoutId(f) => AppItem(uuid, f.name, f.link, f.imageUrl);
    apps + [item]
  }

  /** `updateApp`: same length, order and ids; items with the id take the new
      fields, all others stay as they were. */
  function UpdateApp(apps: seq<AppItem>, id: JsString, data: AppFields): (r: seq<AppItem>)
    ensures |r| == |apps|
    ensures forall i :: 0 <= i < |apps| ==> r[i].id == apps[i].id
    ensures forall i :: 0 <= i < |apps| && apps[i].id != id ==> r[i] == apps[i]
    ensures forall i :: 0 <= i < |apps| && apps[i].id == id ==>
      r[i].name == data.name && r[i].link == data.link && r[i].imageUrl == data.imageUrl
  {
    Map(apps, (a: AppItem) => if a.id == id then WithFields(a, data) else a)
  }

  /** Updating an id no item has leaves the list as it was. */
  lemma UpdateAbsent(apps: seq<AppItem>, id: JsString, data: AppFields)
    requires forall i :: 0 <= i < |apps| ==> apps[i].id != id
    ensures UpdateApp(apps, id, data) == apps
  {
  }

  /** `deleteApp`: every item with the id is gone, every other one stays. */
  function DeleteApp(apps: seq<AppItem>, id: JsString): (r: seq<AppItem>)
    ensures |r| <= |apps|
    ensures forall i :: 0 <= i < |r| ==> r[i].id != id && r[i] in apps
    ensures forall i :: 0 <= i < |apps| && apps[i].id != id ==> apps[i] in r
  {
    Filter(apps, (a: AppItem) => a.id != id)
  }

  /** Deleting keeps the surviving items in their order, and deleting twice is
      deleting once. */
  lemma DeleteOrderAndIdempotence(front: seq<AppItem>, back: seq<AppItem>, id: JsString)
    ensures DeleteApp(front + back, id) == DeleteApp(front, id) + DeleteApp(back, id)
    ensures DeleteApp(DeleteApp(front, id), id) == DeleteApp(front, id)
  {
    FilterAppend(front, back, (a: AppItem) => a.id != id);
    FilterIdempotent(front, (a: AppItem) => a.id != id);
  }

  /** Updating twice with the same fields is updating once. */
  lemma UpdateIdempotent(apps: seq<AppItem>, id: JsString, data: AppFields)
    ensures UpdateApp(UpdateApp(apps, id, data), id, data) == UpdateApp(apps, id, data)
  {
  }

  /** Deleting the id of an app just added with a fresh id gives the list
      back. */
  lemma AddThenDelete(apps: seq<AppItem>, item: AppItem, uuid: JsString)
    requires forall i :: 0 <= i < |apps| ==> apps[i].id != item.id
    ensures DeleteApp(AddApp(apps, WithId(item), uuid), item.id) == apps
  {
    FilterAppend(apps, [item], (a: AppItem) => a.id != item.id);
  }
}

=== FILE: dashboard.dfy ===
/** The handlers of the dashboard (`DizzyDashboard`) as transitions over the
    stores and the bits of UI state they read. Verification uses the group
    store of the state; encryption and decryption are a `Cipher` whose random
    draws are already made. Every handler runs as one atomic step. */
module Dashboard {
  import opened Wrappers
  import opened JsStrings
  import opened PinManager
  import Encryption
  import Apps
  import Notes
  import SavedPins
  import AppForm
  import NoteForm
  import GroupForm

  /** What the PIN dialog was opened for (the `item` with `action: "open"`). */
  datatype Target = OpenApp(app: Apps.AppItem) | OpenNote(note: Notes.Note)

  /** The PIN dialog: closed, or prompting for a target with the group its
      mapping named (possibly none). */
  datatype Dialog = Closed | Prompt(target: Target, pinId: Option<JsString>)

  datatype State = State(
    apps: seq<Apps.AppItem>,
    notes: seq<Notes.Note>,
    pins: seq<SavedPins.SavedPin>,
    mappings: seq<PinMapping>,
    editingApp: Option<Apps.AppItem>,
    editingNote: Option<Notes.Note>,
    appSheetOpen: bool,
    noteSheetOpen: bool,
    decryptedNote: JsString,
    dialog: Dialog)

  datatype Message = IncorrectPin | FailedToDecrypt

  /** What a handler does outside the state: nothing, an `alert`, or a
      `window.open`. */
  datatype Effect = Quiet | Alert(message: Message) | OpenWindow(url: JsString)

  datatype Step = Step(state: State, effect: Effect)

  // ------------------------------------------------------------------ apps

  /** The app record the handler stores: the submitted name and icon with the
      final link. */
  function AppRecord(id: JsString, data: AppForm.Submission, link: JsString): (a: Apps.AppItem)
    ensures a.id == id && a.link == link && a.name == data.name && a.imageUrl == data.imageUrl
  {
    Apps.AppItem(id, data.name, link, data.imageUrl)
  }

  /** Whether the submission asks for protection with a group and a PIN
      (`data.requirePin && data.pinId && data.pin`). */
  predicate WantsProtection(data: AppForm.Submission) {
    data.requirePin && Truthy(data.pinId) && Truthy(data.pin)
  }

  /** `handleSubmitApp`. Editing: with protection and a verified PIN the link
      is stored encrypted and the mapping set; with a wrong PIN nothing
      changes; without `requirePin` the mapping is removed and the link
      stored as given. Adding: the same, under the new id, except that
      nothing is removed. Groups and notes are never touched. */
  function SubmitApp(pl: Encryption.Platform, c: Encryption.Cipher, s: State, data: AppForm.Submission, tempId: JsString)
    : (r: Step)
    ensures r.state.pins == s.pins && r.state.notes == s.notes && r.state.dialog == s.dialog
    ensures r.effect.Alert? ==> r.state == s && r.effect.message == IncorrectPin
    ensures r.effect.Alert? <==>
      WantsProtection(data) && !SavedPins.VerifyPin(pl, s.pins, data.pinId.value, data.pin.value)
    ensures !r.effect.Alert? ==> r.effect == Quiet
  {
    var id := if s.editingApp.Some? then s.editingApp.value.id else tempId;
    if WantsProtection(data) then
      if SavedPins.VerifyPin(pl, s.pins, data.pinId.value, data.pin.value) then
        var link := c.seal(data.link, data.pin.value);
        var mappings := SetPinForItem(s.mappings, id, App, true, data.pinId);
        var apps := if s.editingApp.Some?
          then Apps.UpdateApp(s.apps, id, Apps.AppFields(data.name, link, data.imageUrl))
          else Apps.AddApp(s.apps, Apps.WithId(AppRecord(id, data, link)), tempId);
        Step(s.(apps := apps, mappings := mappings), Quiet)
      else
        Step(s, Alert(IncorrectPin))
    else if s.editingApp.Some? then
      var mappings := if !data.requirePin then RemoveMapping(s.mappings, id, App) else s.mappings;
      var apps := Apps.UpdateApp(s.apps, id, Apps.AppFields(data.name, data.link, data.imageUrl));
      Step(s.(apps := apps, mappings := mappings), Quiet)
    else
      Step(s.(apps := Apps.AddApp(s.apps, Apps.WithId(AppRecord(id, data, data.link)), tempId)), Quiet)
  }

  /** Editing with a PIN that does not verify changes neither the apps nor
      the mappings. */
  lemma WrongPinEditChangesNothing(pl: Encryption.Platform, c: Encryption.Cipher, s: State, data: AppForm.Submission,
                                   tempId: JsString)
    requires WantsProtection(data) && !SavedPins.VerifyPin(pl, s.pins, data.pinId.value, data.pin.value)
    ensures SubmitApp(pl, c, s, data, tempId) == Step(s, Alert(IncorrectPin))
  {
  }

  /** Editing with a verified PIN stores the encrypted link in every app with
      the edited id and maps that id to the group, as protected. */
  lemma ProtectOnEdit(pl: Encryption.Platform, c: Encryption.Cipher, s: State, data: AppForm.Submission, tempId: JsString)
    requires s.editingApp.Some?
    requires WantsProtection(data) && SavedPins.VerifyPin(pl, s.pins, data.pinId.value, data.pin.value)
    ensures var r := SubmitApp(pl, c, s, data, tempId).state;
      var id := s.editingApp.value.id;
      && |r.apps| == |s.apps|
      && (forall i :: 0 <= i < |s.apps| && s.apps[i].id == id ==> r.apps[i].link == c.seal(data.link, data.pin.value))
      && HasPin(r.mappings, id, App)
      && GetPinId(r.mappings, id, App) == data.pinId
  {
    SetThenQuery(s.mappings, s.editingApp.value.id, App, true, data.pinId);
  }

  /** Adding with a verified PIN appends one app, under the new id, holding
      the encrypted link, and maps that id to the group, as protected. */
  lemma ProtectOnAdd(pl: Encryption.Platform, c: Encryption.Cipher, s: State, data: AppForm.Submission, tempId: JsString)
    requires s.editingApp.None?
    requires WantsProtection(data) && SavedPins.VerifyPin(pl, s.pins, data.pinId.value, data.pin.value)
    ensures var r := SubmitApp(pl, c, s, data, tempId).state;
      && r.apps == s.apps + [Apps.AppItem(tempId, data.name, c.seal(data.link, data.pin.value), data.imageUrl)]
      && HasPin(r.mappings, tempId, App)
      && GetPinId(r.mappings, tempId, App) == data.pinId
  {
    SetThenQuery(s.mappings, tempId, App, true, data.pinId);
  }

  /** Editing with `requirePin` off removes the app's mapping outright and
      stores the link as submitted. */
  lemma UnprotectOnEdit(pl: Encryption.Platform, c: Encryption.Cipher, s: State, data: AppForm.Submission, tempId: JsString)
    requires s.editingApp.Some? && !data.requirePin
    ensures var r := SubmitApp(pl, c, s, data, tempId).state;
      var id := s.editingApp.value.id;
      && (forall i :: 0 <= i < |s.apps| && s.apps[i].id == id ==> r.apps[i].link == data.link)
      && !HasPin(r.mappings, id, App)
      && GetPinId(r.mappings, id, App).None?
  {
    RemoveClears(s.mappings, s.editingApp.value.id, App);
  }

  /** Adding without `requirePin` creates no mapping and appends the app with
      its link as submitted. */
  lemma AddWithoutPin(pl: Encryption.Platform, c: Encryption.Cipher, s: State, data: AppForm.Submission, tempId: JsString)
    requires s.editingApp.None? && !data.requirePin
    ensures var r := SubmitApp(pl, c, s, data, tempId).state;
      r.mappings == s.mappings && r.apps == s.apps + [Apps.AppItem(tempId, data.name, data.link, data.imageUrl)]
  {
  }

  /** Submissions that come out of the app sheet always take one of the two
      decided branches: protection with a group and PIN, or no protection.
      The branch that keeps an old mapping while storing a plain link is
      never reached from the sheet. */
  lemma SheetSubmissionsAreDecided(f: AppForm.Fields)
    requires AppForm.Submit(f).submitted.Some?
    ensures var data := AppForm.Submit(f).submitted.value;
      data.requirePin ==> WantsProtection(data)
  {
    AppForm.SubmissionsWellFormed(f);
  }

  /** Editing a protected app opens the sheet on the stored record, whose link
      is the encrypted blob. Saving it again with the group's PIN encrypts
      that blob a second time, so a later open yields the old blob rather
      than the address. */
  lemma ResubmitEncryptsStoredBlob(pl: Encryption.Platform, c: Encryption.Cipher, s: State, app: Apps.AppItem,
                                   pin: JsString, tempId: JsString)
    requires s.editingApp == Some(app)
    requires var f := AppForm.Open(Some(app), GetPinId(s.mappings, app.id, App)).(pin := pin);
      !AppForm.Blocked(f) && f.requirePin
      && SavedPins.VerifyPin(pl, s.pins, f.selectedPinId, pin)
    ensures var f := AppForm.Open(Some(app), GetPinId(s.mappings, app.id, App)).(pin := pin);
      var r := SubmitApp(pl, c, s, AppForm.Submit(f).submitted.value, tempId).state;
      forall i :: 0 <= i < |s.apps| && s.apps[i].id == app.id ==> r.apps[i].link == c.seal(Trim(app.link), pin)
  {
  }

  /** Unticking "require PIN" on a protected app drops its mapping and keeps
      the encrypted blob as the plain link: clicking the app afterwards opens
      the blob itself. */
  lemma UnprotectViaSheetKeepsBlob(pl: Encryption.Platform, c: Encryption.Cipher, s: State, app: Apps.AppItem,
                                   tempId: JsString)
    requires s.editingApp == Some(app)
    requires !AppForm.Blocked(AppForm.SetRequirePin(AppForm.Open(Some(app), GetPinId(s.mappings, app.id, App)), false))
    ensures var f := AppForm.SetRequirePin(AppForm.Open(Some(app), GetPinId(s.mappings, app.id, App)), false);
      var r := SubmitApp(pl, c, s, AppForm.Submit(f).submitted.value, tempId).state;
      && !HasPin(r.mappings, app.id, App)
      && (forall i :: 0 <= i < |s.apps| && s.apps[i].id == app.id ==> r.apps[i].link == Trim(app.link))
      && ClickApp(r, app.(link := Trim(app.link))).effect == OpenWindow(Trim(app.link))
  {
    RemoveClears(s.mappings, app.id, App);
  }

  /** `handleDeleteApp`: the app and its mapping go together. */
  function DeleteApp(s: State, id: JsString): (r: State)
    ensures forall i :: 0 <= i < |r.apps| ==> r.apps[i].id != id
    ensures !HasPin(r.mappings, id, App) && GetPinId(r.mappings, id, App).None?
    ensures r.notes == s.notes && r.pins == s.pins
  {
    RemoveClears(s.mappings, id, App);
    s.(apps := Apps.DeleteApp(s.apps, id), mappings := RemoveMapping(s.mappings, id, App))
  }

  /** `handleClickApp`: an app without a PIN opens its stored link at once; a
      protected one opens the PIN dialog with the group of its mapping. */
  function ClickApp(s: State, app: Apps.AppItem): (r: Step)
    ensures !HasPin(s.mappings, app.id, App) ==> r == Step(s, OpenWindow(app.link))
    ensures HasPin(s.mappings, app.id, App) ==>
      r == Step(s.(dialog := Prompt(OpenApp(app), GetPinId(s.mappings, app.id, App))), Quiet)
  {
    if HasPin(s.mappings, app.id, App) then
      Step(s.(dialog := Prompt(OpenApp(app), GetPinId(s.mappings, app.id, App))), Quiet)
    else
      Step(s, OpenWindow(app.link))
  }

  /** `handleAddApp` and `handleEditApp`: which app the sheet works on, and
      the sheet opens. */
  function StartAppSheet(s: State, editing: Option<Apps.AppItem>): (r: State)
    ensures r.editingApp == editing && r.appSheetOpen
    ensures r.apps == s.apps && r.mappings == s.mappings && r.dialog == s.dialog
  {
    s.(editingApp := editing, appSheetOpen := true)
  }

  /** Pressing save in the app sheet: the sheet's guard, `handleSubmitApp`
      with what the guard let through, then `onClose`. The close does not
      wait for the handler, so the sheet shuts whatever the handler decides;
      a blocked sheet stays open and nothing happens. */
  function SaveAppSheet(pl: Encryption.Platform, c: Encryption.Cipher, s: State, f: AppForm.Fields, tempId: JsString)
    : (r: Step)
    ensures AppForm.Blocked(f) ==> r == Step(s, Quiet)
    ensures !AppForm.Blocked(f) ==> !r.state.appSheetOpen
    ensures !AppForm.Blocked(f) ==>
      (r.effect.Alert? <==> f.requirePin && !SavedPins.VerifyPin(pl, s.pins, f.selectedPinId, f.pin))
    ensures r.effect.Alert? ==> r.state == s.(appSheetOpen := false)
  {
    var o := AppForm.Submit(f);
    if o.submitted.None? then Step(s, Quiet)
    else
      SheetSubmissionsAreDecided(f);
      var h := SubmitApp(pl, c, s, o.submitted.value, tempId);
      Step(h.state.(appSheetOpen := false), h.effect)
  }

  /** Saving a protected app with a PIN that does not verify raises the
      alert and changes no store, yet the sheet is closed and what was typed
      is gone. */
  lemma WrongPinAppSaveClosesSheet(pl: Encryption.Platform, c: Encryption.Cipher, s: State, f: AppForm.Fields,
                                   tempId: JsString)
    requires !AppForm.Blocked(f) && f.requirePin && !SavedPins.VerifyPin(pl, s.pins, f.selectedPinId, f.pin)
    ensures SaveAppSheet(pl, c, s, f, tempId) == Step(s.(appSheetOpen := false), Alert(IncorrectPin))
  {
  }

  // ----------------------------------------------------------------- notes

  /** `handleAddNote`: a fresh, empty note sheet. */
  function StartNoteSheet(s: State): (r: State)
    ensures r.editingNote.None? && r.decryptedNote == Empty && r.noteSheetOpen
    ensures r.apps == s.apps && r.notes == s.notes && r.pins == s.pins && r.mappings == s.mappings
    ensures r.dialog == s.dialog && r.editingApp == s.editingApp && r.appSheetOpen == s.appSheetOpen
  {
    s.(editingNote := None, decryptedNote := Empty, noteSheetOpen := true)
  }

  /** `handleClickNote`: every note goes through the PIN dialog, carrying the
      group of its mapping. */
  function ClickNote(s: State, note: Notes.Note): (r: Step)
    ensures r.effect == Quiet
    ensures r.state == s.(dialog := Prompt(OpenNote(note), GetPinId(s.mappings, note.id, Note)))
  {
    Step(s.(dialog := Prompt(OpenNote(note), GetPinId(s.mappings, note.id, Note))), Quiet)
  }

  /** `handleSubmitNote`, with the clock reading passed in. No PIN: nothing
      happens. Wrong PIN: an alert and nothing changes. Otherwise the content
      is stored encrypted (in the edited note, or in a new one under the new
      id), the note is mapped to the group as protected and the sheet
      closes. */
  function SubmitNote(pl: Encryption.Platform, c: Encryption.Cipher, s: State, data: NoteForm.Submission,
                      tempId: JsString, now: int): (r: Step)
    ensures r.state.apps == s.apps && r.state.pins == s.pins
    ensures data.pin == Empty ==> r == Step(s, Quiet)
    ensures r.effect.Alert? ==> r.state == s
  {
    if data.pin == Empty then Step(s, Quiet)
    else if !SavedPins.VerifyPin(pl, s.pins, data.pinId, data.pin) then Step(s, Alert(IncorrectPin))
    else
      var content := c.seal(data.content, data.pin);
      var id := if s.editingNote.Some? then s.editingNote.value.id else tempId;
      var notes := if s.editingNote.Some?
        then Notes.UpdateNote(s.notes, id, Notes.NotePatch(Some(data.title), Some(content)), now)
        else Notes.AddNote(s.notes, Notes.WithId(id, data.title, content, None, None), tempId, now);
      var mappings := SetPinForItem(s.mappings, id, Note, true, Some(data.pinId));
      Step(s.(notes := notes, mappings := mappings, noteSheetOpen := false), Quiet)
  }

  /** A saved note always ends up encrypted and mapped to its group as
      protected, under the edited id or the new one. */
  lemma SavedNoteIsProtected(pl: Encryption.Platform, c: Encryption.Cipher, s: State, data: NoteForm.Submission,
                             tempId: JsString, now: int)
    requires data.pin != Empty && SavedPins.VerifyPin(pl, s.pins, data.pinId, data.pin)
    ensures var r := SubmitNote(pl, c, s, data, tempId, now);
      var id := if s.editingNote.Some? then s.editingNote.value.id else tempId;
      && r.effect == Quiet && !r.state.noteSheetOpen
      && HasPin(r.state.mappings, id, Note)
      && GetPinId(r.state.mappings, id, Note) == Some(data.pinId)
      && (forall i :: 0 <= i < |r.state.notes| && r.state.notes[i].id == id && (s.editingNote.None? ==> i == |s.notes|)
            ==> r.state.notes[i].encryptedContent == c.seal(data.content, data.pin))
  {
    var id := if s.editingNote.Some? then s.editingNote.value.id else tempId;
    SetThenQuery(s.mappings, id, Note, true, Some(data.pinId));
  }

  /** A note submitted with a PIN that does not verify changes nothing. */
  lemma WrongPinNoteChangesNothing(pl: Encryption.Platform, c: Encryption.Cipher, s: State, data: NoteForm.Submission,
                                   tempId: JsString, now: int)
    requires data.pin != Empty && !SavedPins.VerifyPin(pl, s.pins, data.pinId, data.pin)
    ensures SubmitNote(pl, c, s, data, tempId, now) == Step(s, Alert(IncorrectPin))
  {
  }

  /** A submission from the note sheet always carries a PIN, so the handler's
      silent early return is never taken: the note is saved exactly when the
      PIN verifies for the chosen group, and an alert is raised otherwise. */
  lemma NoteSheetSubmissionsReachVerification(pl: Encryption.Platform, c: Encryption.Cipher, s: State,
                                              f: NoteForm.Fields, tempId: JsString, now: int)
    requires NoteForm.Submit(f).submitted.Some?
    ensures var data := NoteForm.Submit(f).submitted.value;
      var r := SubmitNote(pl, c, s, data, tempId, now);
      && (r.effect == Alert(IncorrectPin) <==> !SavedPins.VerifyPin(pl, s.pins, data.pinId, data.pin))
      && (r.effect == Quiet <==> SavedPins.VerifyPin(pl, s.pins, data.pinId, data.pin))
  {
    NoteForm.SubmissionsWellFormed(f);
  }

  /** Pressing save in the note sheet: the sheet's guard, `handleSubmitNote`
      with what the guard let through, then `onClose`, which shuts the sheet
      whatever the handler decides. A blocked sheet stays open. */
  function SaveNoteSheet(pl: Encryption.Platform, c: Encryption.Cipher, s: State, f: NoteForm.Fields,
                         tempId: JsString, now: int): (r: Step)
    ensures NoteForm.Blocked(f) ==> r == Step(s, Quiet)
    ensures !NoteForm.Blocked(f) ==> !r.state.noteSheetOpen
    ensures !NoteForm.Blocked(f) ==> (r.effect.Alert? <==> !SavedPins.VerifyPin(pl, s.pins, f.selectedPinId, f.pin))
    ensures r.effect.Alert? ==> r.state == s.(noteSheetOpen := false)
  {
    var o := NoteForm.Submit(f);
    if o.submitted.None? then Step(s, Quiet)
    else
      NoteSheetSubmissionsReachVerification(pl, c, s, f, tempId, now);
      var h := SubmitNote(pl, c, s, o.submitted.value, tempId, now);
      Step(h.state.(noteSheetOpen := false), h.effect)
  }

  /** Saving a note with a PIN that does not verify raises the alert and
      changes no store, yet the sheet is closed and the typed content is
      gone. */
  lemma WrongPinNoteSaveClosesSheet(pl: Encryption.Platform, c: Encryption.Cipher, s: State, f: NoteForm.Fields,
                                    tempId: JsString, now: int)
    requires !NoteForm.Blocked(f) && !SavedPins.VerifyPin(pl, s.pins, f.selectedPinId, f.pin)
    ensures SaveNoteSheet(pl, c, s, f, tempId, now) == Step(s.(noteSheetOpen := false), Alert(IncorrectPin))
  {
  }

  /** When the PIN verifies, the sheet's own close adds nothing: the handler
      has already closed it. */
  lemma VerifiedNoteSaveIsHandlerStep(pl: Encryption.Platform, c: Encryption.Cipher, s: State, f: NoteForm.Fields,
                                      tempId: JsString, now: int)
    requires !NoteForm.Blocked(f) && SavedPins.VerifyPin(pl, s.pins, f.selectedPinId, f.pin)
    ensures SaveNoteSheet(pl, c, s, f, tempId, now) == SubmitNote(pl, c, s, NoteForm.Submit(f).submitted.value, tempId, now)
  {
  }

  /** End to end for notes: save a new note under a group whose PIN
      verifies, click the stored note and enter the same PIN: the sheet
      opens on that note with the original content, less a leading byte
      order mark (which content trimmed by the sheet never has). */
  lemma SaveThenOpenNote(pl: Encryption.Platform, c: Encryption.Cipher, s: State, data: NoteForm.Submission,
                         tempId: JsString, now: int)
    requires Encryption.RoundTrips(c)
    requires s.editingNote.None? && data.pinId != Empty && data.pin != Empty
    requires SavedPins.VerifyPin(pl, s.pins, data.pinId, data.pin)
    requires IsWellFormed(data.content) && StripBom(data.content) != Empty
    ensures var s1 := SubmitNote(pl, c, s, data, tempId, now).state;
      var stored := s1.notes[|s.notes|];
      var s2 := ClickNote(s1, stored).state;
      var r := PinSubmit(pl, c, s2, data.pin).state;
      && stored.id == tempId && stored.title == data.title
      && s2.dialog == Prompt(OpenNote(stored), Some(data.pinId))
      && r.decryptedNote == StripBom(data.content) && r.editingNote == Some(stored) && r.noteSheetOpen
  {
    SavedNoteIsProtected(pl, c, s, data, tempId, now);
    var s1 := SubmitNote(pl, c, s, data, tempId, now).state;
    var stored := s1.notes[|s.notes|];
    assert stored.encryptedContent == c.seal(data.content, data.pin);
    assert c.unseal(stored.encryptedContent, data.pin) == Some(StripBom(data.content));
  }

  /** A note saved with empty content can never be opened again: the stored
      blob decrypts to "", which the dialog takes for a failed decryption,
      so every later try with the right PIN alerts and changes nothing. */
  lemma BlankNoteNeverOpens(pl: Encryption.Platform, c: Encryption.Cipher, s: State, data: NoteForm.Submission,
                            tempId: JsString, now: int)
    requires Encryption.RoundTrips(c)
    requires s.editingNote.None? && data.pinId != Empty && data.pin != Empty && data.content == Empty
    requires SavedPins.VerifyPin(pl, s.pins, data.pinId, data.pin)
    ensures var s1 := SubmitNote(pl, c, s, data, tempId, now).state;
      var s2 := ClickNote(s1, s1.notes[|s.notes|]).state;
      PinSubmit(pl, c, s2, data.pin) == Step(s2, Alert(FailedToDecrypt))
  {
    SavedNoteIsProtected(pl, c, s, data, tempId, now);
    var s1 := SubmitNote(pl, c, s, data, tempId, now).state;
    var stored := s1.notes[|s.notes|];
    assert stored.encryptedContent == c.seal(data.content, data.pin);
    assert c.unseal(stored.encryptedContent, data.pin) == Some(Empty);
  }

  /** The sheet lets blank content through, so a note saved from it with a
      blank body, under a PIN that verifies, can never be opened again. */
  lemma BlankSheetNoteNeverOpens(pl: Encryption.Platform, c: Encryption.Cipher, s: State, f: NoteForm.Fields,
                                 tempId: JsString, now: int)
    requires Encryption.RoundTrips(c)
    requires s.editingNote.None? && !NoteForm.Blocked(f) && IsBlank(f.content)
    requires SavedPins.VerifyPin(pl, s.pins, f.selectedPinId, f.pin)
    ensures var s1 := SaveNoteSheet(pl, c, s, f, tempId, now).state;
      var s2 := ClickNote(s1, s1.notes[|s.notes|]).state;
      PinSubmit(pl, c, s2, f.pin) == Step(s2, Alert(FailedToDecrypt))
  {
    VerifiedNoteSaveIsHandlerStep(pl, c, s, f, tempId, now);
    var data := NoteForm.Submit(f).submitted.value;
    assert data.content == Empty;
    BlankNoteNeverOpens(pl, c, s, data, tempId, now);
  }

  /** `handleDeleteNote`: the note and its mapping go together. */
  function DeleteNote(s: State, id: JsString): (r: State)
    ensures forall i :: 0 <= i < |r.notes| ==> r.notes[i].id != id
    ensures !HasPin(r.mappings, id, Note) && GetPinId(r.mappings, id, Note).None?
    ensures r.apps == s.apps && r.pins == s.pins
  {
    RemoveClears(s.mappings, id, Note);
    s.(notes := Notes.DeleteNote(s.notes, id), mappings := RemoveMapping(s.mappings, id, Note))
  }

  // ---------------------------------------------------------------- groups

  /** `handleSubmitPin`: creates the group under the fresh id. */
  function CreateGroup(pl: Encryption.Platform, s: State, data: GroupForm.Submission, newId: JsString, now: int)
    : (r: State)
    ensures !SavedPins.HasId(s.pins, newId) ==> SavedPins.VerifyPin(pl, r.pins, newId, data.pin)
    ensures r.apps == s.apps && r.notes == s.notes && r.mappings == s.mappings
  {
    var r := s.(pins := SavedPins.AddPin(pl, s.pins, data.name, data.pin, data.hint, newId, now).0);
    if SavedPins.HasId(s.pins, newId) then r
    else
      SavedPins.AddThenVerify(pl, s.pins, data.name, data.pin, data.hint, newId, now);
      r
  }

  /** `handleDeletePin`: removes the group and leaves the mappings that name
      it in place; from then on no PIN verifies for it. */
  function DeleteGroup(s: State, id: JsString): (r: State)
    ensures r.mappings == s.mappings && r.apps == s.apps && r.notes == s.notes
    ensures !SavedPins.HasId(r.pins, id)
    ensures forall pl, pin :: !SavedPins.VerifyPin(pl, r.pins, id, pin)
  {
    s.(pins := SavedPins.DeletePin(s.pins, id))
  }

  // ------------------------------------------------------------ PIN dialog

  /** `handlePinSubmit`. Without a group, nothing happens; with a wrong PIN,
      an alert. With the right PIN the target is decrypted: an app opens
      its link, a note opens in the sheet, and the dialog closes; a failed
      or empty decryption raises an alert and leaves the dialog open. The
      stores are never changed. */
  function PinSubmit(pl: Encryption.Platform, c: Encryption.Cipher, s: State, enteredPin: JsString): (r: Step)
    ensures r.state.apps == s.apps && r.state.notes == s.notes
    ensures r.state.pins == s.pins && r.state.mappings == s.mappings
    ensures r.effect.Alert? ==> r.state == s
    ensures r.effect.OpenWindow? ==> r.state.dialog == Closed
  {
    match s.dialog
    case Closed => Step(s, Quiet)
    case Prompt(target, pinId) =>
      if !Truthy(pinId) then Step(s, Quiet)
      else if !SavedPins.VerifyPin(pl, s.pins, pinId.value, enteredPin) then Step(s, Alert(IncorrectPin))
      else match target
        case OpenApp(app) =>
          var link := c.unseal(app.link, enteredPin);
          if Truthy(link) then Step(s.(dialog := Closed), OpenWindow(link.value))
          else Step(s, Alert(FailedToDecrypt))
        case OpenNote(note) =>
          var content := c.unseal(note.encryptedContent, enteredPin);
          if Truthy(content) then
            Step(s.(decryptedNote := content.value, editingNote := Some(note), noteSheetOpen := true, dialog := Closed),
                 Quiet)
          else Step(s, Alert(FailedToDecrypt))
  }

  /** The dialog refuses without a group and with a wrong PIN, and a
      decryption that fails or yields "" keeps it open. */
  lemma PinSubmitRefusals(pl: Encryption.Platform, c: Encryption.Cipher, s: State, enteredPin: JsString)
    requires s.dialog.Prompt?
    ensures !Truthy(s.dialog.pinId) ==> PinSubmit(pl, c, s, enteredPin) == Step(s, Quiet)
    ensures Truthy(s.dialog.pinId) && !SavedPins.VerifyPin(pl, s.pins, s.dialog.pinId.value, enteredPin)
      ==> PinSubmit(pl, c, s, enteredPin) == Step(s, Alert(IncorrectPin))
    ensures Truthy(s.dialog.pinId) && SavedPins.VerifyPin(pl, s.pins, s.dialog.pinId.value, enteredPin)
      && s.dialog.target.OpenApp? && !Truthy(c.unseal(s.dialog.target.app.link, enteredPin))
      ==> PinSubmit(pl, c, s, enteredPin) == Step(s, Alert(FailedToDecrypt))
    ensures Truthy(s.dialog.pinId) && SavedPins.VerifyPin(pl, s.pins, s.dialog.pinId.value, enteredPin)
      && s.dialog.target.OpenNote? && !Truthy(c.unseal(s.dialog.target.note.encryptedContent, enteredPin))
      ==> PinSubmit(pl, c, s, enteredPin) == Step(s, Alert(FailedToDecrypt))
  {
  }

  /** End to end: create a group with a PIN under a fresh id, add an app
      protected by it, click the stored app and enter the PIN: the original
      link opens, less a leading byte order mark (which a link trimmed by the
      sheet never has). Entering a PIN with a different digest instead raises
      "Incorrect PIN" and leaves everything as it was. */
  lemma ProtectThenOpen(pl: Encryption.Platform, c: Encryption.Cipher, s: State, group: GroupForm.Submission,
                        groupId: JsString, now: int, data: AppForm.Submission, appId: JsString, wrongPin: JsString)
    requires Encryption.RoundTrips(c)
    requires !SavedPins.HasId(s.pins, groupId) && groupId != Empty && s.editingApp.None?
    requires data.requirePin && data.pinId == Some(groupId) && data.pin == Some(group.pin) && group.pin != Empty
    requires IsWellFormed(data.link) && StripBom(data.link) != Empty
    requires Encryption.HashPin(pl, wrongPin) != Encryption.HashPin(pl, group.pin)
    ensures var s1 := CreateGroup(pl, s, group, groupId, now);
      var s2 := SubmitApp(pl, c, s1, data, appId).state;
      var stored := s2.apps[|s.apps|];
      var s3 := ClickApp(s2, stored).state;
      && stored.id == appId
      && s3.dialog == Prompt(OpenApp(stored), Some(groupId))
      && PinSubmit(pl, c, s3, group.pin).effect == OpenWindow(StripBom(data.link))
      && PinSubmit(pl, c, s3, wrongPin) == Step(s3, Alert(IncorrectPin))
  {
    var s1 := CreateGroup(pl, s, group, groupId, now);
    assert SavedPins.VerifyPin(pl, s1.pins, groupId, group.pin);
    var s2 := SubmitApp(pl, c, s1, data, appId).state;
    ProtectOnAdd(pl, c, s1, data, appId);
    var stored := s2.apps[|s.apps|];
    assert stored == Apps.AppItem(appId, data.name, c.seal(data.link, group.pin), data.imageUrl);
    assert c.unseal(stored.link, group.pin) == Some(StripBom(data.link));
    var g := SavedPins.GetPinById(s1.pins, groupId).value;
    assert Encryption.VerifyPin(pl, group.pin, g.hashedPin);
  }

  // ------------------------------------------------- the stored app record

  /** The object `handleSubmitApp` passes to `addApp` and `updateApp`:
      `{ ...data, link: finalLink, id }`, as it is saved in the app store;
      `None` fields are `undefined` and dropped by `JSON.stringify`. */
  datatype StoredAppAsWritten = StoredAppAsWritten(id: JsString, name: JsString, link: JsString, imageUrl: JsString,
                                                   requirePin: bool, pinId: Option<JsString>, pin: Option<JsString>)

  /** The record the source stores, spread from the whole submission: it
      carries the raw PIN whenever one was required. */
  function AppRecordAsWritten(id: JsString, data: AppForm.Submission, link: JsString): (a: StoredAppAsWritten)
    ensures a.id == id && a.link == link && a.name == data.name && a.imageUrl == data.imageUrl
    ensures data.requirePin && data.pin.Some? ==> a.pin == Some(data.pin.value)
  {
    StoredAppAsWritten(id, data.name, link, data.imageUrl, data.requirePin, data.pinId, data.pin)
  }

  /** Two submissions that differ only in the PIN typed. */
  predicate SameButPin(a: AppForm.Submission, b: AppForm.Submission) {
    a.name == b.name && a.link == b.link && a.imageUrl == b.imageUrl && a.requirePin == b.requirePin && a.pinId == b.pinId
  }

  /** As written, the persisted app depends on the raw PIN: protecting the
      same app with "4242" and with "0000" stores different records, one of
      them holding "4242" in the clear next to the encrypted link. */
  lemma AsWrittenStoresRawPin(id: JsString, link: JsString, name: JsString)
    ensures var a := AppForm.Submission(name, link, Empty, true, Some([0x67]), Some([0x34, 0x32, 0x34, 0x32]));
      var b := a.(pin := Some([0x30, 0x30, 0x30, 0x30]));
      && SameButPin(a, b)
      && AppRecordAsWritten(id, a, link).pin == Some([0x34, 0x32, 0x34, 0x32])
      && AppRecordAsWritten(id, a, link) != AppRecordAsWritten(id, b, link)
  {
  }

  /** The record this model stores is the record the source stores with the
      three submission fields it should never have copied left out. */
  lemma AppRecordIsAsWrittenLessSubmissionFields(id: JsString, data: AppForm.Submission, link: JsString)
    ensures var a := AppRecordAsWritten(id, data, link);
      AppRecord(id, data, link) == Apps.AppItem(a.id, a.name, a.link, a.imageUrl)
  {
  }

  /** The record this model stores holds no trace of the raw PIN: given the
      final link, it is the same whatever PIN was typed. */
  lemma AppRecordIgnoresPin(id: JsString, a: AppForm.Submission, b: AppForm.Submission, link: JsString)
    requires SameButPin(a, b)
    ensures AppRecord(id, a, link) == AppRecord(id, b, link)
  {
  }
}

=== FILE: encryption.dfy ===
/** The cipher layer: PIN digests, key derivation and the encrypt/decrypt
    pair in both of its modes. Whether Web Crypto is available is the `Mode`;
    the primitives that come from the platform (SHA-256, PBKDF2, AES-GCM,
    UTF-8 and base64) are a record of functions whose laws are `Lawful`. The
    fallback mode is modelled down to the byte. */
module Encryption {
  import opened Wrappers
  import opened JsStrings
  import FallbackHash

  type Byte = bv8
  type Bytes = seq<Byte>

  /** `isCryptoAvailable()`: `Primary` when `crypto.subtle` exists. */
  datatype Mode = Primary | Fallback

  /** PBKDF2 work factor of the primary key derivation. */
  const Pbkdf2Iterations: nat := 100000

  /** Length in bytes of the key the fallback derivation produces. */
  const FallbackKeyLength: nat := 32

  /** Bytes of fresh salt `encrypt` draws. */
  function SaltLength(mode: Mode): nat {
    match mode
    case Primary => 16
    case Fallback => 32
  }

  /** Bytes of fresh nonce `encrypt` draws; the fallback uses none. */
  function IvLength(mode: Mode): nat {
    match mode
    case Primary => 12
    case Fallback => 0
  }

  /** What the platform provides. `gcmOpen` and `base64Decode` return
      `None` where the platform throws. */
  datatype Primitives = Primitives(
    sha256: Bytes -> Bytes,
    // password, salt, iteration count; HMAC-SHA-256 as the PRF; 256-bit output
    pbkdf2: (Bytes, Bytes, nat) -> Bytes,
    // key, iv, plaintext: ciphertext followed by the tag
    gcmSeal: (Bytes, Bytes, Bytes) -> Bytes,
    gcmOpen: (Bytes, Bytes, Bytes) -> Option<Bytes>,
    utf8Encode: JsString -> Bytes,
    utf8Decode: Bytes -> JsString,
    // btoa(String.fromCharCode(...bytes))
    base64Encode: Bytes -> JsString,
    // Uint8Array.from(atob(text), c => c.charCodeAt(0))
    base64Decode: JsString -> Option<Bytes>)

  /** The laws the model takes from the standards: SHA-256 digests are 32
      bytes (FIPS 180-4); PBKDF2 asked for a 256-bit AES key yields 32 bytes
      (section 5.2 of RFC 8018); AES-GCM decryption under the key and iv of
      the encryption returns the plaintext (NIST SP 800-38D); on well-formed
      UTF-16, decoding with a default `TextDecoder` inverts UTF-8 encoding
      except that one leading byte order mark is dropped (the WHATWG Encoding
      Standard's decode with BOM sniffing); base64 decoding inverts encoding
      (section 4 of RFC 4648). */
  ghost predicate Lawful(p: Primitives) {
    && (forall b :: |p.sha256(b)| == 32)
    && (forall pw, salt, n :: |p.pbkdf2(pw, salt, n)| == 32)
    && (forall key, iv, m :: p.gcmOpen(key, iv, p.gcmSeal(key, iv, m)) == Some(m))
    && (forall s :: IsWellFormed(s) ==> p.utf8Decode(p.utf8Encode(s)) == StripBom(s))
    && (forall b :: p.base64Decode(p.base64Encode(b)) == Some(b))
  }

  datatype Platform = Platform(mode: Mode, prims: Primitives)

  // ---------------------------------------------------------------- digests

  /** `hashPin`: base64 of the SHA-256 of the UTF-8 bytes in primary mode,
      the 32-bit hexadecimal digest otherwise. */
  function HashPin(pl: Platform, pin: JsString): (digest: JsString)
    ensures pl.mode == Fallback ==> |digest| == 8 && FallbackHash.IsLowerHex(digest)
  {
    match pl.mode
    case Primary => pl.prims.base64Encode(pl.prims.sha256(pl.prims.utf8Encode(pin)))
    case Fallback => FallbackHash.HashPinFallback(pin)
  }

  /** `verifyPin`: re-hashes the PIN and compares it with the stored digest.
      In fallback mode nothing but eight lower-case hexadecimal digits can
      ever match. */
  function VerifyPin(pl: Platform, pin: JsString, hashed: JsString): (ok: bool)
    ensures ok <==> HashPin(pl, pin) == hashed
    ensures ok && pl.mode == Fallback ==> |hashed| == 8 && FallbackHash.IsLowerHex(hashed)
  {
    HashPin(pl, pin) == hashed
  }

  /** In fallback mode a wrong four-character PIN can pass: "AaAa" verifies
      against the digest stored for "BBBB". */
  lemma FallbackAcceptsWrongPin(prims: Primitives)
    ensures VerifyPin(Platform(Fallback, prims), [65, 97, 65, 97], HashPin(Platform(Fallback, prims), [66, 66, 66, 66]))
  {
    FallbackHash.FourCharacterCollision();
  }

  // ------------------------------------------------------- fallback cipher

  /** The key byte at a position of `pin ∥ salt` read cyclically; an empty
      buffer reads `undefined`, which `^` treats as 0. */
  function CyclicByte(combined: Bytes, i: nat): Byte {
    if |combined| == 0 then 0 else combined[i % |combined|]
  }

  /** `deriveKeyFallback`: 32 bytes, byte `i` being byte `i mod n` of
      `pin ∥ salt` (of length `n`) masked with `i`. Once `pin ∥ salt` has 32
      bytes (always, with a full salt) the key is its first 32 bytes masked
      position by position; an empty `pin ∥ salt` gives the key 0, 1, …, 31. */
  function DeriveKeyFallback(pinBytes: Bytes, salt: Bytes): (key: Bytes)
    ensures |key| == FallbackKeyLength
    ensures |pinBytes| + |salt| > 0 ==>
      forall i :: 0 <= i < 32 ==> key[i] ^ (i as bv8) == (pinBytes + salt)[i % (|pinBytes| + |salt|)]
    ensures |pinBytes| + |salt| >= 32 ==>
      forall i :: 0 <= i < 32 ==> key[i] ^ (i as bv8) == (pinBytes + salt)[i]
    ensures |pinBytes| + |salt| == 0 ==> forall i :: 0 <= i < 32 ==> key[i] == i as bv8
  {
    var combined := pinBytes + salt;
    var key := seq(32, i requires 0 <= i < 32 => CyclicByte(combined, i) ^ (i as bv8));
    UnmaskKey(combined, key);
    key
  }

  /** Unmasking a key built from `combined` read cyclically gives back the
      bytes it was read from. */
  lemma UnmaskKey(combined: Bytes, key: Bytes)
    requires |key| == 32 && forall i :: 0 <= i < 32 ==> key[i] == CyclicByte(combined, i) ^ (i as bv8)
    ensures |combined| > 0 ==> forall i :: 0 <= i < 32 ==> key[i] ^ (i as bv8) == combined[i % |combined|]
    ensures |combined| >= 32 ==> forall i :: 0 <= i < 32 ==> key[i] ^ (i as bv8) == combined[i]
    ensures |combined| == 0 ==> forall i :: 0 <= i < 32 ==> key[i] == i as bv8
  {
    forall i | 0 <= i < 32 ensures key[i] ^ (i as bv8) == CyclicByte(combined, i) {
      XorCancels(CyclicByte(combined, i), i as bv8);
    }
    CyclicByteShort(combined);
  }

  /** Below the buffer's length the cyclic read is the plain read. */
  lemma CyclicByteShort(combined: Bytes)
    ensures forall i: nat :: i < |combined| ==> CyclicByte(combined, i) == combined[i]
  {
  }

  /** Masking twice with the same byte unmasks. */
  lemma XorCancels(a: Byte, b: Byte)
    ensures (a ^ b) ^ b == a
  {
  }

  /** The key byte that masks data position `i`; an empty key reads
      `undefined`, which `^` treats as 0. */
  function KeyByte(key: Bytes, i: nat): Byte {
    if |key| == 0 then 0 else key[i % |key|]
  }

  /** The XOR stream shared by `xorEncrypt` and `xorDecrypt`: same length,
      each byte masked with the key repeated. */
  function XorStream(data: Bytes, key: Bytes): (r: Bytes)
    ensures |r| == |data|
    ensures forall i :: 0 <= i < |data| ==> r[i] ^ data[i] == KeyByte(key, i)
  {
    seq(|data|, i requires 0 <= i < |data| => data[i] ^ KeyByte(key, i))
  }

  /** Masking twice with the same key gives the data back, for every key. */
  lemma XorStreamInvolution(data: Bytes, key: Bytes)
    ensures XorStream(XorStream(data, key), key) == data
  {
    var once := XorStream(data, key);
    var twice := XorStream(once, key);
    forall i | 0 <= i < |data| ensures twice[i] == data[i] {
      assert twice[i] == (data[i] ^ KeyByte(key, i)) ^ KeyByte(key, i);
    }
  }

  /** `xorEncrypt`: the UTF-8 bytes of the text, masked. */
  function XorEncrypt(prims: Primitives, text: JsString, key: Bytes): (r: Bytes)
    ensures |r| == |prims.utf8Encode(text)|
  {
    XorStream(prims.utf8Encode(text), key)
  }

  /** `xorDecrypt`: unmask, then decode the bytes as UTF-8. */
  function XorDecrypt(prims: Primitives, encrypted: Bytes, key: Bytes): JsString {
    prims.utf8Decode(XorStream(encrypted, key))
  }

  /** `xorDecrypt` inverts `xorEncrypt` under the same key, up to the
      leading byte order mark its `TextDecoder` drops. */
  lemma XorRoundTrip(prims: Primitives, text: JsString, key: Bytes)
    requires Lawful(prims) && IsWellFormed(text)
    ensures XorDecrypt(prims, XorEncrypt(prims, text, key), key) == StripBom(text)
  {
    XorStreamInvolution(prims.utf8Encode(text), key);
  }

  // -------------------------------------------------------------- blob layout

  /** The three regions of a decoded blob. */
  datatype Parts = Parts(salt: Bytes, iv: Bytes, body: Bytes)

  /** `combined.set(salt, 0); combined.set(iv, salt.length); …`. */
  function Assemble(p: Parts): Bytes {
    p.salt + p.iv + p.body
  }

  /** `Uint8Array.prototype.slice(from, to)`: indices past the end are clamped. */
  function Slice(s: Bytes, from: nat, to: nat): (r: Bytes)
    ensures |r| <= to - from || from > to
    ensures from <= to <= |s| ==> r == s[from..to]
  {
    var a := if from < |s| then from else |s|;
    var b := if to < |s| then to else |s|;
    if a <= b then s[a..b] else []
  }

  /** `slice(from)` with no end. */
  function SliceFrom(s: Bytes, from: nat): (r: Bytes)
    ensures from <= |s| ==> r == s[from..]
    ensures from >= |s| ==> r == []
  {
    if from < |s| then s[from..] else []
  }

  /** How `decrypt` cuts a decoded blob: salt `[0,16)`, iv `[16,28)`, body
      `[28,…)` in primary mode; salt `[0,32)`, body `[32,…)` in fallback mode.
      The cut loses and invents nothing, and never produces a longer salt or
      iv than the mode uses. */
  function Split(mode: Mode, combined: Bytes): (p: Parts)
    ensures Assemble(p) == combined
    ensures |p.salt| <= SaltLength(mode) && |p.iv| <= IvLength(mode)
    ensures |combined| >= SaltLength(mode) + IvLength(mode) ==>
      |p.salt| == SaltLength(mode) && |p.iv| == IvLength(mode)
  {
    var s := SaltLength(mode);
    var v := IvLength(mode);
    var p := Parts(Slice(combined, 0, s), Slice(combined, s, s + v), SliceFrom(combined, s + v));
    assert Assemble(p) == combined by {
      if |combined| >= s + v {
        assert combined == combined[0..s] + combined[s..s + v] + combined[s + v..];
      } else if |combined| >= s {
        assert combined == combined[0..s] + combined[s..];
      }
    }
    p
  }

  /** Cutting an assembled blob at the fixed offsets gives back exactly the
      salt, iv and body it was assembled from. */
  lemma SplitAssemble(mode: Mode, p: Parts)
    requires |p.salt| == SaltLength(mode) && |p.iv| == IvLength(mode)
    ensures Split(mode, Assemble(p)) == p
  {
    var c := Assemble(p);
    var q := Split(mode, c);
    assert c[..|p.salt|] == p.salt;
    assert c[|p.salt|..|p.salt| + |p.iv|] == p.iv;
    assert c[|p.salt| + |p.iv|..] == p.body;
  }

  // -------------------------------------------------------- encrypt/decrypt

  /** The key a mode derives from a PIN and salt; PBKDF2 with SHA-256 and
      100,000 iterations in primary mode. */
  function DeriveKey(pl: Platform, pin: JsString, salt: Bytes): Bytes {
    match pl.mode
    case Primary => pl.prims.pbkdf2(pl.prims.utf8Encode(pin), salt, Pbkdf2Iterations)
    case Fallback => DeriveKeyFallback(pl.prims.utf8Encode(pin), salt)
  }

  /** The bytes `encrypt` base64-encodes: `salt ∥ iv ∥ AES-GCM(text)` in primary
      mode, `salt ∥ xor(text)` with an empty iv in fallback mode, so a
      fallback blob has exactly 32 more bytes than the UTF-8 text. */
  function Seal(pl: Platform, text: JsString, pin: JsString, salt: Bytes, iv: Bytes): (c: Bytes)
    requires |salt| == SaltLength(pl.mode) && |iv| == IvLength(pl.mode)
    ensures |c| >= SaltLength(pl.mode) + IvLength(pl.mode)
    ensures c[..SaltLength(pl.mode)] == salt
    ensures c[SaltLength(pl.mode)..SaltLength(pl.mode) + IvLength(pl.mode)] == iv
    ensures pl.mode == Fallback ==> |c| == 32 + |pl.prims.utf8Encode(text)|
  {
    var key := DeriveKey(pl, pin, salt);
    var body := match pl.mode
      case Primary => pl.prims.gcmSeal(key, iv, pl.prims.utf8Encode(text))
      case Fallback => XorEncrypt(pl.prims, text, key);
    var c := Assemble(Parts(salt, iv, body));
    assert c[..|salt|] == salt;
    assert c[|salt|..|salt| + |iv|] == iv;
    c
  }

  /** `encrypt(text, pin)` with the random salt and iv it draws passed in. */
  function Encrypt(pl: Platform, text: JsString, pin: JsString, salt: Bytes, iv: Bytes): JsString
    requires |salt| == SaltLength(pl.mode) && |iv| == IvLength(pl.mode)
  {
    pl.prims.base64Encode(Seal(pl, text, pin, salt, iv))
  }

  /** Decryption of already decoded bytes. It fails only when AES-GCM
      rejects the key, iv or tag; the fallback cipher never fails, whatever
      the PIN. */
  function Unseal(pl: Platform, combined: Bytes, pin: JsString): (r: Option<JsString>)
    ensures pl.mode == Fallback ==> r.Some?
    ensures r.None? ==> pl.mode == Primary
  {
    var p := Split(pl.mode, combined);
    var key := DeriveKey(pl, pin, p.salt);
    match pl.mode
    case Primary =>
      (match pl.prims.gcmOpen(key, p.iv, p.body)
       case None => None
       case Some(m) => Some(pl.prims.utf8Decode(m)))
    case Fallback => Some(XorDecrypt(pl.prims, p.body, key))
  }

  /** `decrypt(blob, pin)`: every failure (bad base64, failed authentication)
      becomes `None`, the `null` the source returns from its catch. */
  function Decrypt(pl: Platform, blob: JsString, pin: JsString): (r: Option<JsString>)
    ensures r.None? <==>
      || pl.prims.base64Decode(blob).None?
      || (pl.mode == Primary && Unseal(pl, pl.prims.base64Decode(blob).value, pin).None?)
  {
    match pl.prims.base64Decode(blob)
    case None => None
    case Some(combined) => Unseal(pl, combined, pin)
  }

  /** Decryption with the PIN used to encrypt returns the text, in both modes
      and for every text, the empty one included, except that a leading byte
      order mark is lost to the decoder. */
  lemma RoundTrip(pl: Platform, text: JsString, pin: JsString, salt: Bytes, iv: Bytes)
    requires Lawful(pl.prims) && IsWellFormed(text)
    requires |salt| == SaltLength(pl.mode) && |iv| == IvLength(pl.mode)
    ensures Decrypt(pl, Encrypt(pl, text, pin, salt, iv), pin) == Some(StripBom(text))
  {
    var key := DeriveKey(pl, pin, salt);
    var body := match pl.mode
      case Primary => pl.prims.gcmSeal(key, iv, pl.prims.utf8Encode(text))
      case Fallback => XorEncrypt(pl.prims, text, key);
    SplitAssemble(pl.mode, Parts(salt, iv, body));
    if pl.mode == Fallback {
      XorRoundTrip(pl.prims, text, key);
    }
  }

  /** A text led by a byte order mark comes back without it: "\uFEFFx"
      decrypts to "x", in both modes. */
  lemma BomLedTextLosesBom(pl: Platform, pin: JsString, salt: Bytes, iv: Bytes)
    requires Lawful(pl.prims)
    requires |salt| == SaltLength(pl.mode) && |iv| == IvLength(pl.mode)
    ensures Decrypt(pl, Encrypt(pl, [Bom, 0x78], pin, salt, iv), pin) == Some([0x78])
  {
    var text: JsString := [Bom, 0x78];
    assert IsWellFormed(text) by {
      forall k | 0 <= k < |text| ensures !IsHighSurrogate(text[k]) && !IsLowSurrogate(text[k]) {
        assert k == 0 || k == 1;
      }
    }
    RoundTrip(pl, text, pin, salt, iv);
  }

  /** In fallback mode any PIN "decrypts" a well-encoded blob: a wrong PIN
      yields some text rather than a failure. */
  lemma FallbackNeverRejects(pl: Platform, blob: JsString, pin: JsString)
    requires pl.mode == Fallback && pl.prims.base64Decode(blob).Some?
    ensures Decrypt(pl, blob, pin).Some?
  {
  }

  // ------------------------------------------------------ as the UI sees it

  /** The `encrypt`/`decrypt` pair as the handlers call it: the random salt and
      iv of the call are already drawn. */
  datatype Cipher = Cipher(seal: (JsString, JsString) -> JsString, unseal: (JsString, JsString) -> Option<JsString>)

  /** Decrypting with the PIN used to encrypt gives the text back, less a
      leading byte order mark. */
  ghost predicate RoundTrips(c: Cipher) {
    forall text, pin :: IsWellFormed(text) ==> c.unseal(c.seal(text, pin), pin) == Some(StripBom(text))
  }

  /** The library's pair for one draw of salt and iv: `encrypt` and
      `decrypt` with those draws fixed. With lawful primitives it
      round-trips. */
  function LibraryCipher(pl: Platform, salt: Bytes, iv: Bytes): (c: Cipher)
    requires |salt| == SaltLength(pl.mode) && |iv| == IvLength(pl.mode)
    ensures forall text, pin :: c.seal(text, pin) == Encrypt(pl, text, pin, salt, iv)
    ensures forall blob, pin :: c.unseal(blob, pin) == Decrypt(pl, blob, pin)
    ensures Lawful(pl.prims) ==> RoundTrips(c)
  {
    var c := Cipher((text, pin) => Encrypt(pl, text, pin, salt, iv), (blob, pin) => Decrypt(pl, blob, pin));
    assert Lawful(pl.prims) ==> RoundTrips(c) by {
      if Lawful(pl.prims) {
        forall text, pin | IsWellFormed(text) ensures c.unseal(c.seal(text, pin), pin) == Some(StripBom(text)) {
          RoundTrip(pl, text, pin, salt, iv);
        }
      }
    }
    c
  }
}

=== FILE: export.dfy ===
/** The export sheet: picking PIN groups, validating their PINs, and the
    decision, item by item, of what goes into the export. The file rendering
    (JSON download, PDF layout) is not part of this model. */
module Export {
  import opened Wrappers
  import opened JsStrings
  import opened PinRules
  import opened PinManager
  import Lists
  import Encryption
  import SavedPins
  import Apps
  import Notes

  /** A ticked group: the PIN typed for it and its validation state
      (`None` is `null`, not yet validated). */
  datatype SelectedGroup = SelectedGroup(pinId: JsString, pin: JsString, isValid: Option<bool>)

  /** The `selectedGroups` map, keyed by group id. */
  type Selection = map<JsString, SelectedGroup>

  /** `handleOpenFormat` and `handleClose`: the selection starts empty. */
  function Reset(): (sel: Selection)
    ensures |sel| == 0
  {
    map[]
  }

  /** `handleGroupToggle`: ticking adds the group with an empty, unvalidated
      PIN (replacing any earlier entry); unticking removes it. No other group
      changes. */
  function GroupToggle(sel: Selection, pinId: JsString, checked: bool): (r: Selection)
    ensures checked ==> pinId in r && r[pinId] == SelectedGroup(pinId, Empty, None)
    ensures !checked ==> pinId !in r
    ensures forall k :: k != pinId ==> (k in r <==> k in sel)
    ensures forall k :: k in r && k != pinId ==> r[k] == sel[k]
  {
    if checked then sel[pinId := SelectedGroup(pinId, Empty, None)] else sel - {pinId}
  }

  /** Ticking a group and unticking it again leaves the selection without
      it and otherwise as it was. */
  lemma ToggleOnOff(sel: Selection, pinId: JsString)
    ensures GroupToggle(GroupToggle(sel, pinId, true), pinId, false) == sel - {pinId}
  {
  }

  /** `handlePinChange`: a selected group takes the typed PIN and loses its
      validation; an unselected group is ignored. */
  function PinChange(sel: Selection, pinId: JsString, value: JsString): (r: Selection)
    ensures r.Keys == sel.Keys
    ensures pinId in sel ==> r[pinId] == sel[pinId].(pin := value, isValid := None)
    ensures forall k :: k in sel && k != pinId ==> r[k] == sel[k]
  {
    if pinId in sel then sel[pinId := sel[pinId].(pin := value, isValid := None)] else sel
  }

  /** Records a validation result for a group that is still selected. */
  function SetValid(sel: Selection, pinId: JsString, valid: bool): (r: Selection)
    ensures r.Keys == sel.Keys
    ensures pinId in sel ==> r[pinId] == sel[pinId].(isValid := Some(valid))
    ensures forall k :: k in sel && k != pinId ==> r[k] == sel[k]
  {
    if pinId in sel then sel[pinId := sel[pinId].(isValid := Some(valid))] else sel
  }

  /** `handleValidatePin`, run to completion in one step: a PIN under four
      characters is ignored; an unknown group is marked invalid; otherwise
      the group is marked with the outcome of the library's verification
      against its digest. The typed PIN is kept either way. */
  function ValidatePin(pl: Encryption.Platform, pins: seq<SavedPins.SavedPin>, sel: Selection, pinId: JsString,
                       pin: JsString): (r: Selection)
    ensures r.Keys == sel.Keys
    ensures |pin| < MinPinLength ==> r == sel
    ensures |pin| >= MinPinLength && pinId in sel ==>
      r[pinId] == sel[pinId].(isValid := Some(SavedPins.VerifyPin(pl, pins, pinId, pin)))
    ensures forall k :: k in sel && k != pinId ==> r[k] == sel[k]
  {
    if |pin| < MinPinLength then sel
    else match SavedPins.GetPinById(pins, pinId)
      case None => SetValid(sel, pinId, false)
      case Some(saved) => SetValid(sel, pinId, Encryption.VerifyPin(pl, pin, saved.hashedPin))
  }

  /** Editing a group's PIN after validating it always sends the group back
      to "not validated". */
  lemma EditInvalidates(pl: Encryption.Platform, pins: seq<SavedPins.SavedPin>, sel: Selection, pinId: JsString,
                        pin: JsString, value: JsString)
    requires pinId in sel
    ensures PinChange(ValidatePin(pl, pins, sel, pinId, pin), pinId, value)[pinId].isValid.None?
  {
  }

  /** `allSelectedValid`: something is selected and every selected group is
      validated as correct. */
  predicate AllSelectedValid(sel: Selection) {
    |sel| > 0 && forall k :: k in sel ==> sel[k].isValid == Some(true)
  }

  /** `exportDisabled`: while exporting, or when some group is selected but
      not every one is valid. */
  function ExportDisabled(exporting: bool, sel: Selection): (disabled: bool)
    ensures disabled <==> exporting || exists k :: k in sel && sel[k].isValid != Some(true)
    ensures !exporting && |sel| == 0 ==> !disabled
  {
    exporting || (|sel| > 0 && !AllSelectedValid(sel))
  }

  /** A group ticked and not yet validated blocks the export, and a group
      validated as correct unblocks it when it is the only one. */
  lemma ExportGate(pl: Encryption.Platform, pins: seq<SavedPins.SavedPin>, pinId: JsString, pin: JsString)
    requires |pin| >= MinPinLength
    ensures ExportDisabled(false, GroupToggle(Reset(), pinId, true))
    ensures var sel := ValidatePin(pl, pins, PinChange(GroupToggle(Reset(), pinId, true), pinId, pin), pinId, pin);
      !ExportDisabled(false, sel) <==> SavedPins.VerifyPin(pl, pins, pinId, pin)
  {
    var sel0 := GroupToggle(Reset(), pinId, true);
    assert sel0.Keys == {pinId};
    var sel := ValidatePin(pl, pins, PinChange(sel0, pinId, pin), pinId, pin);
    assert sel.Keys == {pinId};
    assert |sel| == 1;
  }

  /** The entry that unlocks a group, when the selection holds one: selected,
      validated as correct and with a non-empty PIN (`entry?.isValid &&
      entry.pin`). */
  function Unlocking(sel: Selection, pinId: Option<JsString>): (e: Option<SelectedGroup>)
    ensures e.Some? <==>
      Truthy(pinId) && pinId.value in sel && sel[pinId.value].isValid == Some(true) && sel[pinId.value].pin != Empty
    ensures e.Some? ==> e.value == sel[pinId.value]
  {
    if Truthy(pinId) && pinId.value in sel && sel[pinId.value].isValid == Some(true) && sel[pinId.value].pin != Empty
    then Some(sel[pinId.value]) else None
  }

  /** One pass of the app loop of `getDecryptedData`: an app with no group
      (`!pinId`) goes out as it is; an app whose group is unlocked goes out
      with its link decrypted, provided that yields a non-empty string;
      every other app is left out. */
  function ExportApp(pl: Encryption.Platform, ms: seq<PinMapping>, sel: Selection, app: Apps.AppItem)
    : (r: Option<Apps.AppItem>)
    ensures !Truthy(GetPinId(ms, app.id, App)) ==> r == Some(app)
    ensures Truthy(GetPinId(ms, app.id, App)) ==>
      (r.Some? <==> Unlocking(sel, GetPinId(ms, app.id, App)).Some?
                    && Truthy(Encryption.Decrypt(pl, app.link, Unlocking(sel, GetPinId(ms, app.id, App)).value.pin)))
    ensures r.Some? && Truthy(GetPinId(ms, app.id, App)) ==>
      r.value == app.(link := Encryption.Decrypt(pl, app.link, Unlocking(sel, GetPinId(ms, app.id, App)).value.pin).value)
  {
    var pinId := GetPinId(ms, app.id, App);
    if !Truthy(pinId) then Some(app)
    else match Unlocking(sel, pinId)
      case None => None
      case Some(entry) =>
        var link := Encryption.Decrypt(pl, app.link, entry.pin);
        if Truthy(link) then Some(app.(link := link.value)) else None
  }

  /** The note loop, the same way, on the encrypted content. */
  function ExportNote(pl: Encryption.Platform, ms: seq<PinMapping>, sel: Selection, note: Notes.Note)
    : (r: Option<Notes.Note>)
    ensures !Truthy(GetPinId(ms, note.id, Note)) ==> r == Some(note)
    ensures Truthy(GetPinId(ms, note.id, Note)) ==>
      (r.Some? <==> Unlocking(sel, GetPinId(ms, note.id, Note)).Some?
                    && Truthy(Encryption.Decrypt(pl, note.encryptedContent,
                                                 Unlocking(sel, GetPinId(ms, note.id, Note)).value.pin)))
    ensures r.Some? && Truthy(GetPinId(ms, note.id, Note)) ==>
      r.value == note.(encryptedContent :=
        Encryption.Decrypt(pl, note.encryptedContent, Unlocking(sel, GetPinId(ms, note.id, Note)).value.pin).value)
  {
    var pinId := GetPinId(ms, note.id, Note);
    if !Truthy(pinId) then Some(note)
    else match Unlocking(sel, pinId)
      case None => None
      case Some(entry) =>
        var content := Encryption.Decrypt(pl, note.encryptedContent, entry.pin);
        if Truthy(content) then Some(note.(encryptedContent := content.value)) else None
  }

  /** The app loop's body as a function of the item. */
  function AppExporter(pl: Encryption.Platform, ms: seq<PinMapping>, sel: Selection)
    : Apps.AppItem -> Option<Apps.AppItem>
  {
    (a: Apps.AppItem) => ExportApp(pl, ms, sel, a)
  }

  /** The note loop's body as a function of the item. */
  function NoteExporter(pl: Encryption.Platform, ms: seq<PinMapping>, sel: Selection)
    : Notes.Note -> Option<Notes.Note>
  {
    (n: Notes.Note) => ExportNote(pl, ms, sel, n)
  }

  /** `getDecryptedData`: both loops, in store order. */
  function DecryptedData(pl: Encryption.Platform, ms: seq<PinMapping>, sel: Selection, apps: seq<Apps.AppItem>,
                         notes: seq<Notes.Note>): (r: (seq<Apps.AppItem>, seq<Notes.Note>))
    ensures |r.0| <= |apps| && |r.1| <= |notes|
    ensures forall k :: 0 <= k < |r.0| ==> exists i :: 0 <= i < |apps| && r.0[k].id == apps[i].id
    ensures forall k :: 0 <= k < |r.1| ==> exists i :: 0 <= i < |notes| && r.1[k].id == notes[i].id
  {
    var f := AppExporter(pl, ms, sel);
    var exportedApps := Lists.FilterMap(apps, f);
    var exportedNotes := Lists.FilterMap(notes, NoteExporter(pl, ms, sel));
    assert forall k :: 0 <= k < |exportedApps| ==> exists i :: 0 <= i < |apps| && f(apps[i]) == Some(exportedApps[k]);
    (exportedApps, exportedNotes)
  }

  /** The export keeps store order: exporting two runs of apps and of notes
      gives the two exports one after the other. */
  lemma DecryptedDataAppend(pl: Encryption.Platform, ms: seq<PinMapping>, sel: Selection,
                            apps1: seq<Apps.AppItem>, apps2: seq<Apps.AppItem>,
                            notes1: seq<Notes.Note>, notes2: seq<Notes.Note>)
    ensures var a := DecryptedData(pl, ms, sel, apps1, notes1);
      var b := DecryptedData(pl, ms, sel, apps2, notes2);
      DecryptedData(pl, ms, sel, apps1 + apps2, notes1 + notes2) == (a.0 + b.0, a.1 + b.1)
  {
    Lists.FilterMapAppend(apps1, apps2, AppExporter(pl, ms, sel));
    Lists.FilterMapAppend(notes1, notes2, NoteExporter(pl, ms, sel));
  }

  /** Nothing the app loop decides to keep is lost: every app it exports is
      in the exported list, in the form it was exported in. */
  lemma ExportedAppIncluded(pl: Encryption.Platform, ms: seq<PinMapping>, sel: Selection, apps: seq<Apps.AppItem>,
                            notes: seq<Notes.Note>, i: nat)
    requires i < |apps| && ExportApp(pl, ms, sel, apps[i]).Some?
    ensures ExportApp(pl, ms, sel, apps[i]).value in DecryptedData(pl, ms, sel, apps, notes).0
  {
    Lists.FilterMapKeeps(apps, AppExporter(pl, ms, sel), i);
  }

  /** Every note the note loop exports is in the exported list. */
  lemma ExportedNoteIncluded(pl: Encryption.Platform, ms: seq<PinMapping>, sel: Selection, apps: seq<Apps.AppItem>,
                             notes: seq<Notes.Note>, i: nat)
    requires i < |notes| && ExportNote(pl, ms, sel, notes[i]).Some?
    ensures ExportNote(pl, ms, sel, notes[i]).value in DecryptedData(pl, ms, sel, apps, notes).1
  {
    Lists.FilterMapKeeps(notes, NoteExporter(pl, ms, sel), i);
  }

  /** Whether an item has a group recorded (`getPinId` is truthy). */
  predicate AppGuarded(ms: seq<PinMapping>, app: Apps.AppItem) {
    Truthy(GetPinId(ms, app.id, App))
  }

  predicate NoteGuarded(ms: seq<PinMapping>, note: Notes.Note) {
    Truthy(GetPinId(ms, note.id, Note))
  }

  /** With no group selected, the export holds exactly the items without a
      group, in store order: protected items are never leaked and open
      items are never dropped. */
  lemma NothingSelectedExportsOpenItems(pl: Encryption.Platform, ms: seq<PinMapping>, apps: seq<Apps.AppItem>,
                                        notes: seq<Notes.Note>)
    ensures var r := DecryptedData(pl, ms, Reset(), apps, notes);
      && r.0 == Lists.Filter(apps, (a: Apps.AppItem) => !AppGuarded(ms, a))
      && r.1 == Lists.Filter(notes, (n: Notes.Note) => !NoteGuarded(ms, n))
  {
    Lists.FilterMapAsFilter(apps, (a: Apps.AppItem) => ExportApp(pl, ms, Reset(), a),
                            (a: Apps.AppItem) => !AppGuarded(ms, a));
    Lists.FilterMapAsFilter(notes, (n: Notes.Note) => ExportNote(pl, ms, Reset(), n),
                            (n: Notes.Note) => !NoteGuarded(ms, n));
  }

  /** An app encrypted with PIN `pin` under the group `pinId`, whose group is
      selected and validated with that PIN, is exported with its original
      link, less a leading byte order mark, when that is not empty. */
  lemma ProtectedAppExportsPlainLink(pl: Encryption.Platform, ms: seq<PinMapping>, sel: Selection,
                                     app: Apps.AppItem, link: JsString, pin: JsString, salt: Encryption.Bytes,
                                     iv: Encryption.Bytes)
    requires Encryption.Lawful(pl.prims) && IsWellFormed(link) && StripBom(link) != Empty
    requires |salt| == Encryption.SaltLength(pl.mode) && |iv| == Encryption.IvLength(pl.mode)
    requires app.link == Encryption.Encrypt(pl, link, pin, salt, iv)
    requires Truthy(GetPinId(ms, app.id, App))
    requires var g := GetPinId(ms, app.id, App).value;
      g in sel && sel[g].pin == pin && pin != Empty && sel[g].isValid == Some(true)
    ensures ExportApp(pl, ms, sel, app) == Some(app.(link := StripBom(link)))
  {
    Encryption.RoundTrip(pl, link, pin, salt, iv);
  }
}

=== FILE: fallback_hash.dfy ===
/** The digest `hashPin` computes when Web Crypto is unavailable: a 32-bit
    multiplicative string hash over UTF-16 code units, printed as eight
    lower-case hexadecimal digits. */
module FallbackHash {
  import opened JsStrings

  const TWO_31: int := 0x8000_0000
  const TWO_32: int := 0x1_0000_0000

  predicate IsInt32(x: int) {
    -TWO_31 <= x < TWO_31
  }

  /** ECMAScript ToInt32 of an integral number: the one signed 32-bit value
      congruent to `x` modulo 2^32. */
  function ToInt32(x: int): (r: int)
    ensures IsInt32(r)
    ensures r % TWO_32 == x % TWO_32
    ensures IsInt32(x) ==> r == x
  {
    var m := x % TWO_32;
    if m >= TWO_31 then m - TWO_32 else m
  }

  /** Two integers have the same ToInt32 exactly when they agree modulo 2^32. */
  lemma ToInt32Congruent(a: int, b: int)
    ensures ToInt32(a) == ToInt32(b) <==> a % TWO_32 == b % TWO_32
  {
  }

  /** `h << 5`: the operand goes through ToInt32, the shifted bits are read
      back as a signed 32-bit value. */
  function ShiftLeft5(h: int): int {
    ToInt32(ToInt32(h) * 32)
  }

  /** One iteration of the loop: `hash = ((hash << 5) - hash) + char` followed
      by `hash = hash & hash`, which is ToInt32 of the sum. */
  function Step(h: int, c: CodeUnit): int {
    var sum := (ShiftLeft5(h) - h) + c;
    ToInt32(sum)
  }

  /** The value of `hash` after the loop has consumed every code unit of `s`. */
  function RunningHash(s: JsString): (h: int)
    ensures IsInt32(h)
    decreases |s|
  {
    if |s| == 0 then 0 else Step(RunningHash(s[..|s| - 1]), s[|s| - 1])
  }

  /** The same hash without any wrap-around: the polynomial in 31 whose
      coefficients are the code units, most significant first. */
  function PolyHash(s: JsString): int
    decreases |s|
  {
    if |s| == 0 then 0 else 31 * PolyHash(s[..|s| - 1]) + s[|s| - 1]
  }

  /** Adding a multiple of 2^32 does not change the residue. */
  lemma AddMultiple(x: int, k: int)
    ensures (x + k * TWO_32) % TWO_32 == x % TWO_32
  {
  }

  /** Equal residues differ by a multiple of 2^32. */
  lemma SameResidue(x: int, y: int) returns (k: int)
    requires x % TWO_32 == y % TWO_32
    ensures x == y + k * TWO_32
  {
    k := x / TWO_32 - y / TWO_32;
  }

  /** One wrapped step agrees, modulo 2^32, with one unbounded step. */
  lemma StepCongruent(h: int, p: int, c: CodeUnit)
    requires IsInt32(h) && h % TWO_32 == p % TWO_32
    ensures Step(h, c) == ToInt32(31 * p + c)
  {
    var s := ShiftLeft5(h);
    var a := SameResidue(s, 32 * h);
    var b := SameResidue(h, p);
    var k := a + 31 * b;
    assert s - h + c == (31 * p + c) + k * TWO_32;
    AddMultiple(31 * p + c, k);
    ToInt32Congruent(s - h + c, 31 * p + c);
  }

  /** The loop computes the 32-bit wrap-around of the polynomial hash: the
      running value is ToInt32 of the unbounded hash at every step. */
  lemma {:induction false} RunningHashIsPolyHash(s: JsString)
    ensures RunningHash(s) == ToInt32(PolyHash(s))
    decreases |s|
  {
    if |s| > 0 {
      var pre := s[..|s| - 1];
      RunningHashIsPolyHash(pre);
      StepCongruent(RunningHash(pre), PolyHash(pre), s[|s| - 1]);
    }
  }

  /** `Math.abs` of a 32-bit value is at most 2^31. */
  function Abs(x: int): (r: nat)
    ensures x >= 0 ==> r == x
    ensures x < 0 ==> r == -x
  {
    if x < 0 then -x else x
  }

  predicate IsLowerHexDigit(c: CodeUnit) {
    ('0' as int <= c <= '9' as int) || ('a' as int <= c <= 'f' as int)
  }

  predicate IsLowerHex(s: JsString) {
    forall k :: 0 <= k < |s| ==> IsLowerHexDigit(s[k])
  }

  /** The digit `toString(16)` writes for a value below 16. */
  function HexDigit(d: int): (c: CodeUnit)
    requires 0 <= d < 16
    ensures IsLowerHexDigit(c)
  {
    if d < 10 then '0' as int + d else 'a' as int + (d - 10)
  }

  /** The value of one lower-case hexadecimal digit. */
  function DigitValue(c: CodeUnit): (d: int)
    requires IsLowerHexDigit(c)
    ensures 0 <= d < 16 && HexDigit(d) == c
  {
    if c <= '9' as int then c - '0' as int else c - 'a' as int + 10
  }

  /** The number a string of hexadecimal digits denotes, most significant
      digit first. */
  function HexValue(s: JsString): nat
    requires IsLowerHex(s)
    decreases |s|
  {
    if |s| == 0 then 0 else 16 * HexValue(s[..|s| - 1]) + DigitValue(s[|s| - 1])
  }

  function Pow16(k: nat): (r: nat)
    ensures r >= 1
  {
    if k == 0 then 1 else 16 * Pow16(k - 1)
  }

  lemma {:induction false} Pow16Monotone(i: nat, j: nat)
    requires i <= j
    ensures Pow16(i) <= Pow16(j)
    decreases j
  {
    if i < j {
      Pow16Monotone(i, j - 1);
    }
  }

  /** `n.toString(16)`: lower-case hexadecimal digits without leading zeros
      ("0" for zero) that denote `n`, and exactly as many digits as `n`
      needs. */
  function ToHex(n: nat): (r: JsString)
    ensures |r| >= 1 && IsLowerHex(r)
    ensures HexValue(r) == n
    ensures n < Pow16(|r|)
    ensures |r| > 1 ==> Pow16(|r| - 1) <= n && r[0] != '0' as int
    decreases n
  {
    if n < 16 then [HexDigit(n)]
    else
      var q := ToHex(n / 16);
      var r := q + [HexDigit(n % 16)];
      assert r[..|r| - 1] == q;
      r
  }

  /** Leading zeros do not change the value a digit string denotes. */
  lemma {:induction false} LeadingZerosKeepValue(z: nat, s: JsString)
    requires IsLowerHex(s)
    ensures IsLowerHex(seq(z, _ => '0' as int) + s)
    ensures HexValue(seq(z, _ => '0' as int) + s) == HexValue(s)
    decreases |s|
  {
    var zs: JsString := seq(z, _ => '0' as int);
    if |s| == 0 {
      assert zs + s == zs;
      AllZerosValue(z);
    } else {
      var pre := s[..|s| - 1];
      LeadingZerosKeepValue(z, pre);
      assert (zs + s)[..|zs + s| - 1] == zs + pre;
    }
  }

  lemma {:induction false} AllZerosValue(z: nat)
    ensures IsLowerHex(seq(z, _ => '0' as int))
    ensures HexValue(seq(z, _ => '0' as int)) == 0
    decreases z
  {
    if z > 0 {
      var zs: JsString := seq(z, _ => '0' as int);
      assert zs[..z - 1] == seq(z - 1, _ => '0' as int);
      AllZerosValue(z - 1);
    }
  }

  /** Every value up to 2^31 prints in at most eight hexadecimal digits. */
  lemma HexWidthAtMost8(n: nat)
    requires n <= TWO_31
    ensures |ToHex(n)| <= 8
  {
    var r := ToHex(n);
    if |r| > 8 {
      Pow16Monotone(8, |r| - 1);
    }
  }

  /** `s.padStart(8, '0')`. */
  function PadStart8(s: JsString): (r: JsString)
    ensures |s| <= 8 ==> |r| == 8
    ensures |s| > 8 ==> r == s
  {
    if |s| >= 8 then s else seq(8 - |s|, _ => '0' as int) + s
  }

  /** `hashPinFallback`: always exactly eight lower-case hexadecimal digits,
      denoting the absolute value of the 32-bit hash, which is at most 2^31. */
  function HashPinFallback(pin: JsString): (r: JsString)
    ensures |r| == 8 && IsLowerHex(r)
    ensures HexValue(r) == Abs(RunningHash(pin)) <= TWO_31
  {
    var n := Abs(RunningHash(pin));
    var digits := ToHex(n);
    HexWidthAtMost8(n);
    LeadingZerosKeepValue(8 - |digits|, digits);
    PadStart8(digits)
  }

  /** The empty PIN hashes to "00000000". */
  lemma EmptyPinDigest()
    ensures HashPinFallback([]) == seq(8, _ => '0' as int)
  {
    assert ToHex(0) == ['0' as int];
    assert seq(7, _ => '0' as int) + ['0' as int] == seq(8, _ => '0' as int);
  }

  /** Appending one code unit is one step of the unbounded hash. */
  lemma PolyHashSnoc(s: JsString, c: CodeUnit)
    ensures PolyHash(s + [c]) == 31 * PolyHash(s) + c
  {
    assert (s + [c])[..|s|] == s;
  }

  /** Two different four-character PINs with the same digest: "AaAa" and
      "BBBB" have the same 32-bit hash, so each verifies against the other's
      stored digest in fallback mode. */
  lemma FourCharacterCollision()
    ensures HashPinFallback([65, 97, 65, 97]) == HashPinFallback([66, 66, 66, 66])
  {
    var e: JsString := [];
    assert e + [65] == [65] && e + [66] == [66];
    assert [65] + [97] == [65, 97] && [65, 97] + [65] == [65, 97, 65];
    assert [65, 97, 65] + [97] == [65, 97, 65, 97];
    assert [66] + [66] == [66, 66] && [66, 66] + [66] == [66, 66, 66];
    assert [66, 66, 66] + [66] == [66, 66, 66, 66];
    PolyHashSnoc(e, 65);
    PolyHashSnoc([65], 97);
    PolyHashSnoc([65, 97], 65);
    PolyHashSnoc([65, 97, 65], 97);
    PolyHashSnoc(e, 66);
    PolyHashSnoc([66], 66);
    PolyHashSnoc([66, 66], 66);
    PolyHashSnoc([66, 66, 66], 66);
    assert PolyHash([65, 97, 65, 97]) == 2031744 == PolyHash([66, 66, 66, 66]);
    RunningHashIsPolyHash([65, 97, 65, 97]);
    RunningHashIsPolyHash([66, 66, 66, 66]);
  }
}

=== FILE: group_form.dfy ===
/** The create-group sheet (`GroupFormSheet`). */
module GroupForm {
  import opened Wrappers
  import opened JsStrings

  datatype Fields = Fields(name: JsString, pin: JsString, hint: JsString)

  /** The `data` handed to `onSubmit`. */
  datatype Submission = Submission(name: JsString, pin: JsString, hint: JsString)

  datatype Outcome = Outcome(submitted: Option<Submission>, closed: bool)

  /** Opening the sheet empties all three fields. */
  function Open(): (f: Fields)
    ensures f.name == Empty && f.pin == Empty && f.hint == Empty
  {
    Fields(Empty, Empty, Empty)
  }

  /** The Create button is disabled while the trimmed name or the trimmed PIN
      is empty. */
  predicate CreateDisabled(f: Fields) {
    Trim(f.name) == Empty || Trim(f.pin) == Empty
  }

  /** `handleSubmit`: refuses exactly when the button is disabled; otherwise
      hands over all three fields trimmed, then closes. No minimum PIN length
      is checked here. */
  function Submit(f: Fields): (o: Outcome)
    ensures o.closed <==> o.submitted.Some?
    ensures o.submitted.None? <==> IsBlank(f.name) || IsBlank(f.pin)
    ensures o.submitted.Some? ==> o.submitted.value == Submission(Trim(f.name), Trim(f.pin), Trim(f.hint))
  {
    if Trim(f.name) == Empty || Trim(f.pin) == Empty then Outcome(None, false)
    else Outcome(Some(Submission(Trim(f.name), Trim(f.pin), Trim(f.hint))), true)
  }

  /** The button and the handler agree. */
  lemma DisabledIffRefused(f: Fields)
    ensures CreateDisabled(f) <==> Submit(f).submitted.None?
  {
  }

  /** A one-character PIN gets through, with any non-blank name: only the
      input's `minLength` attribute asks for four. */
  lemma ShortPinAccepted(name: JsString, digit: CodeUnit, hint: JsString)
    requires !IsBlank(name) && !IsWhitespace(digit)
    ensures Submit(Fields(name, [digit], hint)).submitted == Some(Submission(Trim(name), [digit], Trim(hint)))
  {
    TrimOfTrimmed([digit]);
  }
}

=== FILE: js_strings.dfy ===
/** JavaScript strings as the source sees them: sequences of UTF-16 code units.
    `length`, `charCodeAt`, `trim()` and string truthiness all work on code
    units, so the model does too. */
module JsStrings {
  import opened Wrappers

  /** One UTF-16 code unit, the value `charCodeAt` returns. */
  type CodeUnit = c: int | 0 <= c < 0x1_0000

  type JsString = seq<CodeUnit>

  /** The empty string `""`. */
  const Empty: JsString := []

  /** A string used as a condition is true exactly when it is defined and
      non-empty (`if (data.pin)`, `!pinId`). */
  predicate Truthy(s: Option<JsString>) {
    s.Some? && |s.value| > 0
  }

  /** The code units `String.prototype.trim` removes: the WhiteSpace
      (TAB, VT, FF, ZWNBSP and every space separator) and LineTerminator
      (LF, CR, LS, PS) productions of ECMAScript. */
  predicate IsWhitespace(c: CodeUnit) {
    || c == 0x09 || c == 0x0A || c == 0x0B || c == 0x0C || c == 0x0D
    || c == 0x20 || c == 0xA0 || c == 0x1680
    || (0x2000 <= c <= 0x200A)
    || c == 0x2028 || c == 0x2029 || c == 0x202F || c == 0x205F
    || c == 0x3000 || c == 0xFEFF
  }

  /** Nothing is left once the whitespace is trimmed away. */
  predicate IsBlank(s: JsString) {
    forall k :: 0 <= k < |s| ==> IsWhitespace(s[k])
  }

  /** Drops leading whitespace: the result is a suffix of `s`, everything cut
      off was whitespace, and the result does not start with whitespace. */
  function TrimStart(s: JsString): (r: JsString)
    ensures |r| <= |s| && r == s[|s| - |r|..]
    ensures forall k :: 0 <= k < |s| - |r| ==> IsWhitespace(s[k])
    ensures |r| > 0 ==> !IsWhitespace(r[0])
    decreases |s|
  {
    if |s| > 0 && IsWhitespace(s[0]) then TrimStart(s[1..]) else s
  }

  /** Drops trailing whitespace: the result is a prefix of `s`, everything cut
      off was whitespace, and the result does not end with whitespace. */
  function TrimEnd(s: JsString): (r: JsString)
    ensures |r| <= |s| && r == s[..|r|]
    ensures forall k :: |r| <= k < |s| ==> IsWhitespace(s[k])
    ensures |r| > 0 ==> !IsWhitespace(r[|r| - 1])
    decreases |s|
  {
    if |s| > 0 && IsWhitespace(s[|s| - 1]) then TrimEnd(s[..|s| - 1]) else s
  }

  /** `s.trim()`: `TrimEnd` after `TrimStart`; neither end of the result is
      whitespace, and the result is empty exactly when `s` is blank. */
  function Trim(s: JsString): (r: JsString)
    ensures |r| <= |s|
    ensures |r| > 0 ==> !IsWhitespace(r[0]) && !IsWhitespace(r[|r| - 1])
    ensures r == [] <==> IsBlank(s)
  {
    var t := TrimStart(s);
    var r := TrimEnd(t);
    r
  }

  /** `Trim(s)` is the part of `s` between the positions it returns, and all
      of `s` outside that part is whitespace. */
  lemma TrimIsInfix(s: JsString) returns (i: nat, j: nat)
    ensures i <= j <= |s| && Trim(s) == s[i..j]
    ensures forall k :: 0 <= k < i ==> IsWhitespace(s[k])
    ensures forall k :: j <= k < |s| ==> IsWhitespace(s[k])
  {
    var t := TrimStart(s);
    var e := TrimEnd(t);
    i := |s| - |t|;
    j := i + |e|;
    PrefixOfSuffix(s, t, e);
  }

  /** A prefix `e` of a suffix `t` of `s` is the slice of `s` where they
      overlap, and what `t` has after `e` is what `s` has after that slice. */
  lemma PrefixOfSuffix(s: JsString, t: JsString, e: JsString)
    requires |t| <= |s| && t == s[|s| - |t|..]
    requires |e| <= |t| && e == t[..|e|]
    ensures e == s[|s| - |t|..|s| - |t| + |e|]
    ensures forall k :: |s| - |t| + |e| <= k < |s| ==> s[k] == t[k - (|s| - |t|)]
  {
    var i := |s| - |t|;
    forall k | 0 <= k < |e| ensures e[k] == s[i + k] {
      assert e[k] == t[k];
    }
  }

  /** Trimming twice is trimming once. */
  lemma TrimIdempotent(s: JsString)
    ensures Trim(Trim(s)) == Trim(s)
  {
    var r := Trim(s);
    if |r| > 0 {
      assert TrimStart(r) == r;
      assert TrimEnd(r) == r;
    }
  }

  /** A string whose ends are not whitespace is its own trim. */
  lemma TrimOfTrimmed(s: JsString)
    requires |s| > 0 ==> !IsWhitespace(s[0]) && !IsWhitespace(s[|s| - 1])
    ensures Trim(s) == s
  {
    if |s| > 0 {
      assert TrimStart(s) == s;
      assert TrimEnd(s) == s;
    }
  }

  predicate IsHighSurrogate(c: CodeUnit) {
    0xD800 <= c <= 0xDBFF
  }

  predicate IsLowSurrogate(c: CodeUnit) {
    0xDC00 <= c <= 0xDFFF
  }

  /** Well-formed UTF-16: every surrogate is half of a pair. These are the
      strings UTF-8 can carry without replacement. */
  predicate IsWellFormed(s: JsString) {
    forall k :: 0 <= k < |s| ==>
      && (IsHighSurrogate(s[k]) ==> k + 1 < |s| && IsLowSurrogate(s[k + 1]))
      && (IsLowSurrogate(s[k]) ==> k > 0 && IsHighSurrogate(s[k - 1]))
  }

  /** The byte order mark, U+FEFF. */
  const Bom: CodeUnit := 0xFEFF

  /** What a default `TextDecoder` gives back for the UTF-8 of `s`: one
      leading byte order mark is taken as a signature and dropped; nothing
      else changes. */
  function StripBom(s: JsString): (r: JsString)
    ensures |s| > 0 && s[0] == Bom ==> r == s[1..]
    ensures |s| == 0 || s[0] != Bom ==> r == s
  {
    if |s| > 0 && s[0] == Bom then s[1..] else s
  }

  /** A trimmed string never starts with a byte order mark, since U+FEFF is
      whitespace to `trim`: what the sheets submit survives `StripBom`. */
  lemma TrimmedKeepsThroughStripBom(s: JsString)
    ensures StripBom(Trim(s)) == Trim(s)
  {
  }
}

=== FILE: lists.dfy ===
/** The array operations every store in the source is built from:
    `filter`, `map`, `find`, and the push-if loop of the export. */
module Lists {
  import opened Wrappers

  /** `s.filter(keep)`: exactly the elements of `s` that `keep` accepts; when
      `keep` accepts every element the list comes back unchanged. */
  function Filter<T(==)>(s: seq<T>, keep: T -> bool): (r: seq<T>)
    ensures |r| <= |s|
    ensures forall i :: 0 <= i < |r| ==> r[i] in s && keep(r[i])
    ensures forall i :: 0 <= i < |s| && keep(s[i]) ==> s[i] in r
    ensures (forall i :: 0 <= i < |s| ==> keep(s[i])) ==> r == s
    decreases |s|
  {
    if |s| == 0 then []
    else if keep(s[0]) then [s[0]] + Filter(s[1..], keep)
    else Filter(s[1..], keep)
  }

  /** Filtering keeps relative order: filtering a concatenation is the
      concatenation of the filtered parts. */
  lemma {:induction false} FilterAppend<T>(a: seq<T>, b: seq<T>, keep: T -> bool)
    ensures Filter(a + b, keep) == Filter(a, keep) + Filter(b, keep)
    decreases |a|
  {
    if |a| == 0 {
      assert a + b == b;
    } else {
      assert (a + b)[1..] == a[1..] + b;
      FilterAppend(a[1..], b, keep);
    }
  }

  /** Filtering with the same predicate twice changes nothing more. */
  lemma {:induction false} FilterIdempotent<T>(s: seq<T>, keep: T -> bool)
    ensures Filter(Filter(s, keep), keep) == Filter(s, keep)
  {
    var r := Filter(s, keep);
  }

  /** `s.map(f)`: same length, element by element. */
  function Map<T, U>(s: seq<T>, f: T -> U): (r: seq<U>)
    ensures |r| == |s|
    ensures forall i :: 0 <= i < |s| ==> r[i] == f(s[i])
  {
    seq(|s|, i requires 0 <= i < |s| => f(s[i]))
  }

  /** `s.find(p)`, as the index of the first element `p` accepts. */
  function FindIndex<T>(s: seq<T>, p: T -> bool): (r: Option<nat>)
    ensures r.Some? ==> r.value < |s| && p(s[r.value])
    ensures r.Some? ==> forall j :: 0 <= j < r.value ==> !p(s[j])
    ensures r.None? <==> forall j :: 0 <= j < |s| ==> !p(s[j])
    decreases |s|
  {
    if |s| == 0 then None
    else if p(s[0]) then Some(0)
    else match FindIndex(s[1..], p)
      case None => None
      case Some(k) => Some(k + 1)
  }

  /** `s.find(p)`: the first element `p` accepts, or `undefined`. */
  function Find<T>(s: seq<T>, p: T -> bool): (r: Option<T>)
    ensures r.Some? <==> exists i :: 0 <= i < |s| && p(s[i])
    ensures r.Some? ==> p(r.value)
    ensures r.Some? ==> exists i :: 0 <= i < |s| && s[i] == r.value && forall j :: 0 <= j < i ==> !p(s[j])
  {
    match FindIndex(s, p)
    case None => None
    case Some(i) => Some(s[i])
  }

  /** A loop that pushes `f(x)` for every `x` where `f` yields a value and skips
      the rest: never longer than the input, and each output comes from one
      input. */
  function FilterMap<T, U(==)>(s: seq<T>, f: T -> Option<U>): (r: seq<U>)
    ensures |r| <= |s|
    ensures forall k :: 0 <= k < |r| ==> exists i :: 0 <= i < |s| && f(s[i]) == Some(r[k])
    decreases |s|
  {
    if |s| == 0 then []
    else match f(s[0])
      case Some(y) => [y] + FilterMap(s[1..], f)
      case None => FilterMap(s[1..], f)
  }

  /** The push loop visits items in order: the output of a concatenation is
      the concatenation of the outputs. */
  lemma {:induction false} FilterMapAppend<T, U>(a: seq<T>, b: seq<T>, f: T -> Option<U>)
    ensures FilterMap(a + b, f) == FilterMap(a, f) + FilterMap(b, f)
    decreases |a|
  {
    if |a| == 0 {
      assert a + b == b;
    } else {
      assert (a + b)[1..] == a[1..] + b;
      FilterMapAppend(a[1..], b, f);
    }
  }

  /** Every input whose `f` yields a value shows up in the output. */
  lemma {:induction false} FilterMapKeeps<T, U>(s: seq<T>, f: T -> Option<U>, i: nat)
    requires i < |s| && f(s[i]).Some?
    ensures f(s[i]).value in FilterMap(s, f)
    decreases |s|
  {
    if i > 0 {
      FilterMapKeeps(s[1..], f, i - 1);
    }
  }

  /** A push loop that either keeps an item as it is or skips it is the
      filter on the items it keeps. */
  lemma {:induction false} FilterMapAsFilter<T>(s: seq<T>, f: T -> Option<T>, keep: T -> bool)
    requires forall i :: 0 <= i < |s| ==> f(s[i]) == (if keep(s[i]) then Some(s[i]) else None)
    ensures FilterMap(s, f) == Filter(s, keep)
    decreases |s|
  {
    if |s| > 0 {
      FilterMapAsFilter(s[1..], f, keep);
    }
  }

  /** Removing only elements `p` rejects does not change what `find(p)` sees. */
  lemma {:induction false} FindAfterFilter<T>(s: seq<T>, keep: T -> bool, p: T -> bool)
    requires forall i :: 0 <= i < |s| && p(s[i]) ==> keep(s[i])
    ensures Find(Filter(s, keep), p) == Find(s, p)
    decreases |s|
  {
    if |s| > 0 {
      FindAfterFilter(s[1..], keep, p);
      if !p(s[0]) && keep(s[0]) {
        assert ([s[0]] + Filter(s[1..], keep))[1..] == Filter(s[1..], keep);
      }
    }
  }

  /** Rewriting elements in place without changing which ones `p` accepts, and
      leaving those it accepts alone, does not change what `find(p)` sees. */
  lemma {:induction false} FindAfterMap<T>(s: seq<T>, f: T -> T, p: T -> bool)
    requires forall i :: 0 <= i < |s| ==> p(f(s[i])) == p(s[i])
    requires forall i :: 0 <= i < |s| && p(s[i]) ==> f(s[i]) == s[i]
    ensures Find(Map(s, f), p) == Find(s, p)
    decreases |s|
  {
    if |s| > 0 {
      FindAfterMap(s[1..], f, p);
      assert Map(s, f)[1..] == Map(s[1..], f);
    }
  }

  /** Appending an element `p` rejects does not change what `find(p)` sees. */
  lemma {:induction false} FindAfterAppend<T>(s: seq<T>, x: T, p: T -> bool)
    requires !p(x)
    ensures Find(s + [x], p) == Find(s, p)
    decreases |s|
  {
    if |s| > 0 {
      FindAfterAppend(s[1..], x, p);
      assert (s + [x])[1..] == s[1..] + [x];
    }
  }
}

=== FILE: note_form.dfy ===
/** The add/edit note sheet (`NoteFormSheet`). Every note needs a group and
    its PIN. */
module NoteForm {
  import opened Wrappers
  import opened JsStrings
  import opened PinRules
  import Notes

  datatype Fields = Fields(title: JsString, content: JsString, selectedPinId: JsString, pin: JsString)

  /** The `data` handed to `onSubmit`. */
  datatype Submission = Submission(title: JsString, content: JsString, pinId: JsString, pin: JsString)

  datatype Outcome = Outcome(submitted: Option<Submission>, closed: bool)

  /** The effect that runs when the sheet opens: the title of the note being
      edited, the content decrypted for it, its group, and an empty PIN. */
  function Open(initialData: Option<Notes.Note>, decryptedContent: Option<JsString>, initialPinId: Option<JsString>)
    : (f: Fields)
    ensures f.title == (if initialData.Some? then initialData.value.title else Empty)
    ensures f.content == decryptedContent.GetOr(Empty)
    ensures f.selectedPinId == initialPinId.GetOr(Empty)
    ensures f.pin == Empty
  {
    var title := match initialData
      case Some(n) => n.title
      case None => Empty;
    Fields(title, decryptedContent.GetOr(Empty), initialPinId.GetOr(Empty), Empty)
  }

  /** Choosing a group clears the PIN. */
  function SelectGroup(f: Fields, pinId: JsString): (r: Fields)
    ensures r.selectedPinId == pinId && r.pin == Empty
    ensures r.title == f.title && r.content == f.content
  {
    f.(selectedPinId := pinId, pin := Empty)
  }

  /** Why submit can refuse: a blank title, no group, or a PIN shorter than
      four characters. */
  predicate Blocked(f: Fields) {
    Trim(f.title) == Empty || f.selectedPinId == Empty || |f.pin| < MinPinLength
  }

  /** `handleSubmit`: when not blocked, hands over the trimmed title and
      content with the group and the PIN as typed, then closes. */
  function Submit(f: Fields): (o: Outcome)
    ensures o.closed <==> o.submitted.Some?
    ensures o.submitted.None? <==> Blocked(f)
    ensures o.submitted.Some? ==>
      o.submitted.value == Submission(Trim(f.title), Trim(f.content), f.selectedPinId, f.pin)
  {
    if Trim(f.title) == Empty || f.selectedPinId == Empty || |f.pin| < MinPinLength then Outcome(None, false)
    else Outcome(Some(Submission(Trim(f.title), Trim(f.content), f.selectedPinId, f.pin)), true)
  }

  /** Submissions leave the sheet with a trimmed, non-blank title, a group and
      a PIN of at least four characters. */
  lemma SubmissionsWellFormed(f: Fields)
    requires Submit(f).submitted.Some?
    ensures var d := Submit(f).submitted.value;
      && Trim(d.title) == d.title && d.title != Empty
      && d.pinId != Empty && |d.pin| >= MinPinLength
  {
    TrimIdempotent(f.title);
  }
}

=== FILE: notes.dfy ===
/** The note store (`useNotes`): titled notes whose body is kept encrypted,
    with creation and update timestamps. */
module Notes {
  import opened Wrappers
  import opened JsStrings
  import opened Lists

  datatype Note = Note(id: JsString, title: JsString, encryptedContent: JsString, createdAt: int, updatedAt: int)

  /** What `addNote` receives: a note with an id (its timestamps possibly
      missing) or one without an id or timestamps. */
  datatype NewNote =
    | WithId(id: JsString, title: JsString, encryptedContent: JsString, createdAt: Option<int>, updatedAt: Option<int>)
    | WithoutId(title: JsString, encryptedContent: JsString)

  /** The fields `updateNote` was given; `None` where the key is absent. */
  datatype NotePatch = NotePatch(title: Option<JsString>, encryptedContent: Option<JsString>)

  /** `t || now`: a missing or zero timestamp is replaced by the clock. */
  function OrNow(t: Option<int>, now: int): (r: int)
    ensures t.Some? && t.value != 0 ==> r == t.value
    ensures t.None? || t.value == 0 ==> r == now
  {
    if t.Some? && t.value != 0 then t.value else now
  }

  /** `addNote`, with the clock reading and the UUID passed in: appends one
      note; a note with an id keeps its id, title, content and any truthy
      timestamps, the rest default to now. */
  function AddNote(notes: seq<Note>, note: NewNote, uuid: JsString, now: int): (r: seq<Note>)
    ensures |r| == |notes| + 1 && r[..|notes|] == notes
    ensures var n := r[|notes|];
      n.title == note.title && n.encryptedContent == note.encryptedContent
    ensures note.WithId? ==> r[|notes|].id == note.id
    ensures note.WithId? && note.createdAt.Some? && note.createdAt.value != 0 ==> r[|notes|].createdAt == note.createdAt.value
    ensures note.WithId? && note.updatedAt.Some? && note.updatedAt.value != 0 ==> r[|notes|].updatedAt == note.updatedAt.value
    ensures note.WithoutId? ==> r[|notes|] == Note(uuid, note.title, note.encryptedContent, now, now)
  {
    var n := match note
      case WithId(id, title, content, created, updated) =>
        Note(id, title, content, OrNow(created, now), OrNow(updated, now))
      case WithoutId(title, content) => Note(uuid, title, content, now, now);
    notes + [n]
  }

  function Patched(n: Note, data: NotePatch, now: int): Note {
    n.(title := data.title.GetOr(n.title),
       encryptedContent := data.encryptedContent.GetOr(n.encryptedContent),
       updatedAt := now)
  }

  /** `updateNote`, with the clock reading passed in: same length, order, ids
      and creation times; matching notes take the given fields and are
      stamped `now`, the others stay as they were. */
  function UpdateNote(notes: seq<Note>, id: JsString, data: NotePatch, now: int): (r: seq<Note>)
    ensures |r| == |notes|
    ensures forall i :: 0 <= i < |notes| ==> r[i].id == notes[i].id && r[i].createdAt == notes[i].createdAt
    ensures forall i :: 0 <= i < |notes| && notes[i].id != id ==> r[i] == notes[i]
    ensures forall i :: 0 <= i < |notes| && notes[i].id == id ==>
      && r[i].updatedAt == now
      && (data.title.Some? ==> r[i].title == data.title.value)
      && (data.title.None? ==> r[i].title == notes[i].title)
      && (data.encryptedContent.Some? ==> r[i].encryptedContent == data.encryptedContent.value)
      && (data.encryptedContent.None? ==> r[i].encryptedContent == notes[i].encryptedContent)
  {
    Map(notes, (n: Note) => if n.id == id then Patched(n, data, now) else n)
  }

  /** `deleteNote`: every note with the id is gone, every other one stays. */
  function DeleteNote(notes: seq<Note>, id: JsString): (r: seq<Note>)
    ensures |r| <= |notes|
    ensures forall i :: 0 <= i < |r| ==> r[i].id != id && r[i] in notes
    ensures forall i :: 0 <= i < |notes| && notes[i].id != id ==> notes[i] in r
  {
    Filter(notes, (n: Note) => n.id != id)
  }

  /** Deleting keeps the surviving notes in their order, and deleting twice is
      deleting once. */
  lemma DeleteOrderAndIdempotence(front: seq<Note>, back: seq<Note>, id: JsString)
    ensures DeleteNote(front + back, id) == DeleteNote(front, id) + DeleteNote(back, id)
    ensures DeleteNote(DeleteNote(front, id), id) == DeleteNote(front, id)
  {
    FilterAppend(front, back, (n: Note) => n.id != id);
    FilterIdempotent(front, (n: Note) => n.id != id);
  }

  /** Updating twice with the same fields at the same time is updating once. */
  lemma UpdateIdempotent(notes: seq<Note>, id: JsString, data: NotePatch, now: int)
    ensures UpdateNote(UpdateNote(notes, id, data, now), id, data, now) == UpdateNote(notes, id, data, now)
  {
  }

  /** Deleting the id of a note just added with a fresh id gives the list
      back. */
  lemma AddThenDelete(notes: seq<Note>, note: NewNote, uuid: JsString, now: int)
    requires note.WithId?
    requires forall i :: 0 <= i < |notes| ==> notes[i].id != note.id
    ensures DeleteNote(AddNote(notes, note, uuid, now), note.id) == notes
  {
    var added := AddNote(notes, note, uuid, now);
    assert added == notes + [added[|notes|]];
    FilterAppend(notes, [added[|notes|]], (n: Note) => n.id != note.id);
  }
}

=== FILE: pin_dialog.dfy ===
/** The PIN prompt (`PinDialog`) shown before a protected item opens. */
module PinDialog {
  import opened Wrappers
  import opened JsStrings
  import opened PinRules

  datatype Fields = Fields(pin: JsString, error: bool)

  /** Opening clears the PIN and the error flag. */
  function Open(): (f: Fields)
    ensures f.pin == Empty && !f.error
  {
    Fields(Empty, false)
  }

  /** Any edit takes the new text and clears the error flag. */
  function Edit(f: Fields, value: JsString): (r: Fields)
    ensures r.pin == value && !r.error
  {
    Fields(value, false)
  }

  /** `handleSubmit`: a PIN shorter than four characters raises the error flag
      and is not submitted; a longer one is submitted exactly as typed and the
      fields stay as they are. */
  function Submit(f: Fields): (r: (Fields, Option<JsString>))
    ensures |f.pin| < MinPinLength ==> r.0 == f.(error := true) && r.1.None?
    ensures |f.pin| >= MinPinLength ==> r.0 == f && r.1 == Some(f.pin)
  {
    if |f.pin| < MinPinLength then (f.(error := true), None) else (f, Some(f.pin))
  }

  /** After a refused short PIN, typing a long enough one clears the error and
      submits exactly what was typed. */
  lemma RetryAfterError(f: Fields, value: JsString)
    requires |f.pin| < MinPinLength && |value| >= MinPinLength
    ensures Submit(f).0.error
    ensures Submit(Edit(Submit(f).0, value)) == (Fields(value, false), Some(value))
  {
  }
}

=== FILE: pin_manager.dfy ===
/** The registry binding protected items to PIN groups
    (`usePinManager`): an ordered list of mappings keyed by item id and kind. */
module PinManager {
  import opened Wrappers
  import opened JsStrings
  import opened Lists

  /** The `type` of a mapped item: `"app"` or `"note"`. */
  datatype ItemKind = App | Note

  /** One stored mapping; `pinId` refers to a saved PIN group. */
  datatype PinMapping = PinMapping(id: JsString, kind: ItemKind, hasPin: bool, pinId: Option<JsString>)

  predicate Matches(m: PinMapping, id: JsString, kind: ItemKind) {
    m.id == id && m.kind == kind
  }

  /** At most one mapping per `(id, type)`. */
  predicate UniqueKeys(ms: seq<PinMapping>) {
    forall i, j :: 0 <= i < j < |ms| ==> !Matches(ms[j], ms[i].id, ms[i].kind)
  }

  /** `setPinForItem`: when some mapping has the key, every such mapping gets
      the new `hasPin`/`pinId` in place and nothing else changes; otherwise
      exactly one new mapping is appended at the end. `pinId` is stored as
      given, also when `hasPin` is false. */
  function SetPinForItem(ms: seq<PinMapping>, id: JsString, kind: ItemKind, hasPin: bool, pinId: Option<JsString>)
    : (r: seq<PinMapping>)
    ensures var existed := exists i :: 0 <= i < |ms| && Matches(ms[i], id, kind);
      |r| == if existed then |ms| else |ms| + 1
    ensures forall i :: 0 <= i < |ms| ==> r[i].id == ms[i].id && r[i].kind == ms[i].kind
    ensures forall i :: 0 <= i < |ms| && !Matches(ms[i], id, kind) ==> r[i] == ms[i]
    ensures forall i :: 0 <= i < |r| && Matches(r[i], id, kind) ==> r[i].hasPin == hasPin && r[i].pinId == pinId
    ensures |r| > |ms| ==> r[|ms|] == PinMapping(id, kind, hasPin, pinId)
  {
    var existing := Find(ms, m => Matches(m, id, kind));
    if existing.Some? then
      Map(ms, m => if Matches(m, id, kind) then m.(hasPin := hasPin, pinId := pinId) else m)
    else
      ms + [PinMapping(id, kind, hasPin, pinId)]
  }

  /** No mapping before position `i` has the key. */
  predicate NoneBefore(ms: seq<PinMapping>, i: int, id: JsString, kind: ItemKind)
    requires i <= |ms|
  {
    forall j :: 0 <= j < i ==> !Matches(ms[j], id, kind)
  }

  /** `hasPin`: the flag of the first mapping with the key, false when none. */
  function HasPin(ms: seq<PinMapping>, id: JsString, kind: ItemKind): (r: bool)
    ensures r ==> exists i :: 0 <= i < |ms| && Matches(ms[i], id, kind) && ms[i].hasPin
  {
    match Find(ms, m => Matches(m, id, kind))
    case Some(m) => m.hasPin
    case None => false
  }

  /** `getPinId`: the group of the first mapping with the key, if any. */
  function GetPinId(ms: seq<PinMapping>, id: JsString, kind: ItemKind): (r: Option<JsString>)
    ensures r.Some? ==> exists i :: 0 <= i < |ms| && Matches(ms[i], id, kind) && ms[i].pinId == r
  {
    match Find(ms, m => Matches(m, id, kind))
    case Some(m) => m.pinId
    case None => None
  }

  /** The queries read the first mapping with the key, and answer "no PIN,
      no group" when no mapping has it. */
  lemma QueryFirstMatch(ms: seq<PinMapping>, id: JsString, kind: ItemKind)
    ensures NoneBefore(ms, |ms|, id, kind) ==> !HasPin(ms, id, kind) && GetPinId(ms, id, kind).None?
    ensures forall i :: 0 <= i < |ms| && Matches(ms[i], id, kind) && NoneBefore(ms, i, id, kind) ==>
      HasPin(ms, id, kind) == ms[i].hasPin && GetPinId(ms, id, kind) == ms[i].pinId
  {
  }

  /** With unique keys the registry answers exactly what the one mapping
      with the key holds. */
  lemma QueryExact(ms: seq<PinMapping>, id: JsString, kind: ItemKind, i: nat)
    requires UniqueKeys(ms) && i < |ms| && Matches(ms[i], id, kind)
    ensures HasPin(ms, id, kind) == ms[i].hasPin
    ensures GetPinId(ms, id, kind) == ms[i].pinId
  {
    QueryFirstMatch(ms, id, kind);
    assert NoneBefore(ms, i, id, kind);
  }

  /** `removeMapping`: every mapping with the key is gone, every other one
      stays. */
  function RemoveMapping(ms: seq<PinMapping>, id: JsString, kind: ItemKind): (r: seq<PinMapping>)
    ensures |r| <= |ms|
    ensures forall i :: 0 <= i < |r| ==> !Matches(r[i], id, kind) && r[i] in ms
    ensures forall i :: 0 <= i < |ms| && !Matches(ms[i], id, kind) ==> ms[i] in r
  {
    Filter(ms, m => !Matches(m, id, kind))
  }

  /** After `setPinForItem(id, type, h, p)` the registry answers `h` and `p`
      for that key. */
  lemma SetThenQuery(ms: seq<PinMapping>, id: JsString, kind: ItemKind, hasPin: bool, pinId: Option<JsString>)
    ensures HasPin(SetPinForItem(ms, id, kind, hasPin, pinId), id, kind) == hasPin
    ensures GetPinId(SetPinForItem(ms, id, kind, hasPin, pinId), id, kind) == pinId
  {
    var r := SetPinForItem(ms, id, kind, hasPin, pinId);
    var k := if |r| > |ms| then |ms| else (var i :| 0 <= i < |ms| && Matches(ms[i], id, kind); i);
    assert Matches(r[k], id, kind);
  }

  /** Setting one key leaves what the registry answers for any other key
      unchanged. */
  lemma SetLeavesOtherKeys(ms: seq<PinMapping>, id: JsString, kind: ItemKind, hasPin: bool, pinId: Option<JsString>,
                           otherId: JsString, otherKind: ItemKind)
    requires otherId != id || otherKind != kind
    ensures HasPin(SetPinForItem(ms, id, kind, hasPin, pinId), otherId, otherKind) == HasPin(ms, otherId, otherKind)
    ensures GetPinId(SetPinForItem(ms, id, kind, hasPin, pinId), otherId, otherKind) == GetPinId(ms, otherId, otherKind)
  {
    var p := (m: PinMapping) => Matches(m, otherId, otherKind);
    if Find(ms, m => Matches(m, id, kind)).Some? {
      FindAfterMap(ms, m => if Matches(m, id, kind) then m.(hasPin := hasPin, pinId := pinId) else m, p);
    } else {
      FindAfterAppend(ms, PinMapping(id, kind, hasPin, pinId), p);
    }
  }

  /** Setting a key keeps the keys unique. */
  lemma SetKeepsUnique(ms: seq<PinMapping>, id: JsString, kind: ItemKind, hasPin: bool, pinId: Option<JsString>)
    requires UniqueKeys(ms)
    ensures UniqueKeys(SetPinForItem(ms, id, kind, hasPin, pinId))
  {
  }

  /** After `removeMapping` the item reads as unprotected with no group, and
      removing again changes nothing. */
  lemma RemoveClears(ms: seq<PinMapping>, id: JsString, kind: ItemKind)
    ensures !HasPin(RemoveMapping(ms, id, kind), id, kind)
    ensures GetPinId(RemoveMapping(ms, id, kind), id, kind).None?
    ensures RemoveMapping(RemoveMapping(ms, id, kind), id, kind) == RemoveMapping(ms, id, kind)
  {
    FilterIdempotent(ms, m => !Matches(m, id, kind));
  }

  /** Removing one key leaves what the registry answers for any other key
      unchanged. */
  lemma RemoveLeavesOtherKeys(ms: seq<PinMapping>, id: JsString, kind: ItemKind, otherId: JsString, otherKind: ItemKind)
    requires otherId != id || otherKind != kind
    ensures HasPin(RemoveMapping(ms, id, kind), otherId, otherKind) == HasPin(ms, otherId, otherKind)
    ensures GetPinId(RemoveMapping(ms, id, kind), otherId, otherKind) == GetPinId(ms, otherId, otherKind)
  {
    FindAfterFilter(ms, m => !Matches(m, id, kind), m => Matches(m, otherId, otherKind));
  }

  /** Marking an item unprotected does not clear its group: a later
      `getPinId` still returns the group passed in. */
  lemma UnprotectedMayKeepGroup(ms: seq<PinMapping>, id: JsString, kind: ItemKind, group: JsString)
    ensures !HasPin(SetPinForItem(ms, id, kind, false, Some(group)), id, kind)
    ensures GetPinId(SetPinForItem(ms, id, kind, false, Some(group)), id, kind) == Some(group)
  {
    SetThenQuery(ms, id, kind, false, Some(group));
  }
}

=== FILE: pin_rules.dfy ===
/** Rules on PINs shared by every sheet and dialog that asks for one. */
module PinRules {
  /** Minimum PIN length the sheets, the PIN dialog and the export sheet
      enforce before they hand a PIN on. */
  const MinPinLength: nat := 4
}

=== FILE: saved_pins.dfy ===
/** The registry of PIN groups (`useSavedPins`): each group keeps a digest
    of its PIN and never the PIN itself. */
module SavedPins {
  import opened Wrappers
  import opened JsStrings
  import opened Lists
  import Encryption

  /** One stored group. There is no field that could hold the raw PIN. */
  datatype SavedPin = SavedPin(id: JsString, name: JsString, hashedPin: JsString, hint: JsString, createdAt: int)

  predicate HasId(pins: seq<SavedPin>, id: JsString) {
    exists i :: 0 <= i < |pins| && pins[i].id == id
  }

  /** `addPin`, with the fresh UUID and the clock reading passed in: appends
      one group named as asked, whose digest the PIN verifies against, and
      returns its id. */
  function AddPin(pl: Encryption.Platform, pins: seq<SavedPin>, name: JsString, pin: JsString, hint: JsString,
                  newId: JsString, now: int): (r: (seq<SavedPin>, JsString))
    ensures r.1 == newId
    ensures |r.0| == |pins| + 1 && r.0[..|pins|] == pins
    ensures var g := r.0[|pins|];
      g.id == newId && g.name == name && g.hint == hint && g.createdAt == now
    ensures Encryption.VerifyPin(pl, pin, r.0[|pins|].hashedPin)
  {
    var hashedPin := Encryption.HashPin(pl, pin);
    var newPin := SavedPin(newId, name, hashedPin, hint, now);
    (pins + [newPin], newId)
  }

  /** The stored state depends on the PIN only through its digest: two PINs
      with the same digest leave identical registries behind. */
  lemma AddPinKeepsOnlyDigest(pl: Encryption.Platform, pins: seq<SavedPin>, name: JsString, pinA: JsString,
                              pinB: JsString, hint: JsString, newId: JsString, now: int)
    requires Encryption.HashPin(pl, pinA) == Encryption.HashPin(pl, pinB)
    ensures AddPin(pl, pins, name, pinA, hint, newId, now) == AddPin(pl, pins, name, pinB, hint, newId, now)
  {
  }

  /** `deletePin`: every group with the id is gone, the others stay. Mappings
      that point at it are not touched (they live in another store). */
  function DeletePin(pins: seq<SavedPin>, id: JsString): (r: seq<SavedPin>)
    ensures |r| <= |pins|
    ensures !HasId(r, id)
    ensures forall i :: 0 <= i < |pins| && pins[i].id != id ==> pins[i] in r
    ensures forall i :: 0 <= i < |r| ==> r[i] in pins
  {
    Filter(pins, (p: SavedPin) => p.id != id)
  }

  /** Deleting keeps the surviving groups in their order, and deleting twice
      is deleting once. */
  lemma DeleteOrderAndIdempotence(front: seq<SavedPin>, back: seq<SavedPin>, id: JsString)
    ensures DeletePin(front + back, id) == DeletePin(front, id) + DeletePin(back, id)
    ensures DeletePin(DeletePin(front, id), id) == DeletePin(front, id)
  {
    FilterAppend(front, back, (p: SavedPin) => p.id != id);
    FilterIdempotent(front, (p: SavedPin) => p.id != id);
  }

  /** `getPinById`: the first group with the id, or nothing when no group has
      it. */
  function GetPinById(pins: seq<SavedPin>, id: JsString): (r: Option<SavedPin>)
    ensures r.None? <==> !HasId(pins, id)
    ensures r.Some? ==> r.value.id == id
    ensures r.Some? ==> exists i :: 0 <= i < |pins| && pins[i] == r.value && (forall j :: 0 <= j < i ==> pins[j].id != id)
  {
    Find(pins, (p: SavedPin) => p.id == id)
  }

  /** `verifyPin(id, pin)`: false for an unknown group, otherwise the
      library's verification against that group's digest. */
  function VerifyPin(pl: Encryption.Platform, pins: seq<SavedPin>, id: JsString, pin: JsString): (ok: bool)
    ensures !HasId(pins, id) ==> !ok
    ensures HasId(pins, id) ==> ok == Encryption.VerifyPin(pl, pin, GetPinById(pins, id).value.hashedPin)
  {
    match GetPinById(pins, id)
    case None => false
    case Some(saved) => Encryption.VerifyPin(pl, pin, saved.hashedPin)
  }

  /** A group created with a fresh id accepts the PIN it was created with. */
  lemma AddThenVerify(pl: Encryption.Platform, pins: seq<SavedPin>, name: JsString, pin: JsString, hint: JsString,
                      newId: JsString, now: int)
    requires !HasId(pins, newId)
    ensures var (next, id) := AddPin(pl, pins, name, pin, hint, newId, now);
      VerifyPin(pl, next, id, pin)
  {
    var (next, id) := AddPin(pl, pins, name, pin, hint, newId, now);
    assert next[|pins|].id == newId;
    var g := GetPinById(next, newId).value;
    var i :| 0 <= i < |next| && next[i] == g && (forall j :: 0 <= j < i ==> next[j].id != newId);
    assert i == |pins|;
  }

  /** Deleting a group makes every PIN fail against its id. */
  lemma DeleteThenVerify(pl: Encryption.Platform, pins: seq<SavedPin>, id: JsString, pin: JsString)
    ensures !VerifyPin(pl, DeletePin(pins, id), id, pin)
  {
  }
}

=== FILE: wrappers.dfy ===
/** The optional value used wherever the source returns `undefined`, `null`
    or an absent map entry. */
module Wrappers {

  datatype Option<+T> = None | Some(value: T) {

    /** The value when present, `default` otherwise (the `??` operator). */
    function GetOr(default: T): T {
      match this
      case Some(v) => v
      case None => default
    }
  }
}
